=== FILE: README.md ===
# crypto-tasks core in Dafny

crypto-tasks is a small task tracker: an Express/Mongoose backend with a JWT
login and per-user task lists, and a React dashboard. This project models its
decision logic as pure functions and proves properties of it:

- the authentication middleware (`authMiddleware`): the bearer-header check,
  token extraction with `split(" ")[1]`, verification, the user lookup and the
  call to `next()`;
- the task handlers (`createTask`, `getTasts`, `updateTask`, `deleteTask`) over
  a store of tasks keyed by id and scoped by their `owner` field, including the
  two `completed` normalisations;
- the user handlers (`registerUser`, `loginUser`, `getCurrentUser`,
  `updateProfile`, `updatePassword`) and the token issuer `createToken`;
- the dashboard's `fetchTasks` state update, its response-shape extraction and
  its statistics (completed predicate, counts, completion percentage).

Every handler is a function from the store, the request and an environment to
`Handled(writes, store, settled)`. `writes` lists every `res.json` call the
handler attempts, in order. A branch that writes an error but does not
`return` therefore shows up as two writes. Only the first can reach the
client; Node raises "headers already sent" on the second. `settled` is
`Unhandled` when an exception escapes outside any `try`; the handler itself
sends nothing then, and what the client sees is up to Express (see
"## Left out").

The libraries are parameters, collected in `Tokens.Services`:
- jsonwebtoken's `sign` and `verify`;
- bcrypt's `hash` and `compare`;
- validator's `isEmail`;
- the task schema's validation of a new document, and the casting and update validators Mongoose runs on an update;
- the `JWT_SECRET` environment variable.

Nothing about them is assumed. Where a proof needs a library guarantee, the
lemma states it as a precondition: `Tokens.SignVerifyAgree`,
`Tokens.ExpiryEnforced`, or "bcrypt accepts a password against its own hash".

`Tokens.Env` carries what varies from one request to the next:
- the clock;
- the bcrypt salt;
- the id the database assigns;
- whether the handler's first database call throws.

Modules follow the source files:

| module | file | models |
|---|---|---|
| `Js` | js.dfy | JavaScript values, truthiness, `.length <`, `split`, ASCII `toLowerCase` |
| `Models` | models.dfy | user and task documents, the `findById` / `findOne` / `find` lookups |
| `Http` | http.dfy | response envelopes and the handler result |
| `Tokens` | tokens.dfy | `JWT_SECRET`, `TOKEN_SPIRES`, `createToken`, the library parameters |
| `Auth` | auth.dfy | backend/middleware/auth.ts |
| `TaskController` | task_controller.dfy | backend/controllers/taskController.ts |
| `UserController` | user_controller.dfy | backend/controllers/userController.ts |
| `Layout` | layout.dfy | frontend/src/components/Layout.tsx (data logic only) |

`updateTask` passes the whole body, `owner` included, to `findOneAndUpdate`,
so a user can hand a task over to another account
(`TaskController.UpdateCanReassignOwner`).

Query filters follow Mongoose: a filter key whose value is `undefined` is
dropped and matches every document (`Models.FilterMatches`), while
`findById(undefined)` finds nothing. A request that reaches a handler
without a user therefore filters tasks by nothing at all.

## Model

| member | source | states |
|---|---|---|
| Js.Truthy | backend/controllers/userController.ts:26 | JavaScript truthiness as `!name` tests it: the falsy values are exactly `undefined`, `null`, `false`, `0` and "" |
| Js.StartsWith | backend/middleware/auth.ts:16 | `startsWith` holds iff every prefix character matches the string's at the same position, case included; the string is then the prefix followed by the rest |
| Js.Split | backend/middleware/auth.ts:21 | `split` on one character: at least one part, no part contains the separator, and joining the parts with it gives back the string |
| Js.SplitsAtSeparator | backend/middleware/auth.ts:21 | the split has a second part exactly when the separator occurs |
| Js.SplitNoSeparator | backend/middleware/auth.ts:21 | a string without the separator splits into itself alone |
| Js.SplitAfterPrefix | backend/middleware/auth.ts:21 | splitting `p + sep + r`, where `p` has no separator, gives `p` followed by the parts of `r` |
| Js.FirstPartIsPrefix | backend/middleware/auth.ts:21 | the first part is the longest prefix without the separator |
| Js.Trim | backend/controllers/userController.ts:36 | the whitespace `Number` strips: the result is no longer and neither starts nor ends with a space |
| Js.TrimIsMiddle | backend/controllers/userController.ts:36 | the trimmed string is a slice `s[i..j]` of the original, and everything before `i` and from `j` on is whitespace |
| Js.NatToDigits | backend/controllers/userController.ts:36 | the reference spelling that the `Number` conversion on this line must read back (`String(n)`): decimal digits of a natural number, at least one, starting with '0' only for zero itself |
| Js.DigitsRoundTrip | backend/controllers/userController.ts:36 | reading back the digits of `n` gives `n` |
| Js.ParseDecimalRoundTrip | backend/controllers/userController.ts:36 | `Number` of the decimal form of `n` or `-n` gives it back |
| Js.LengthBelow | backend/controllers/userController.ts:36 | `v.length < bound` on a truthy value: never for numbers and booleans, which have no length; never below a non-positive bound for strings and arrays; never for an object without `length`, which compares `NaN` |
| Js.LengthBelowObjects | backend/controllers/userController.ts:36 | on objects, `null`, `true`, `" 3 "` and `["7"]` lengths are below 8 |
| Js.LengthNotBelowObjects | backend/controllers/userController.ts:36 | on objects, `"12"`, `"abc"` and a missing length are not below 8 |
| Js.LowerIsYes | frontend/src/components/Layout.tsx:65 | `toLowerCase() === "yes"` holds for exactly the upper/lower-case spellings of "yes" |
| Models.FilterMatches | backend/controllers/taskController.ts:40 | a filter key matches a stored value it equals, and every value when the key is `undefined` |
| Models.IndexOfId | backend/controllers/userController.ts:142 | the position found holds the id and no earlier position does; no position means no user has it |
| Models.FindUserById | backend/middleware/auth.ts:26 | a user is found iff the id is defined and some stored user has it; the one found is stored and has that id |
| Models.FindUserByEmail | backend/controllers/userController.ts:68 | a user is found iff some stored e-mail satisfies the filter; the one found does; an undefined e-mail finds the first user |
| Models.FindOtherByEmail | backend/controllers/userController.ts:114 | found iff some user other than the requester has an e-mail satisfying the filter, so an undefined e-mail finds any other user |
| Tokens.JwtSecret | backend/controllers/userController.ts:13 | the key is never empty; it is the variable when that is set and non-empty, else the default |
| Tokens.TokenRequest | backend/controllers/userController.ts:14-16 | the signed payload is exactly `{id: userId}`, expiring "24h" from the current second, under the configured secret |
| Tokens.CreateToken | backend/controllers/userController.ts:16 | when the library keeps its promise, the token verifies at once to `{id: userId}` |
| Tokens.TokenLifetimeWindow | backend/controllers/userController.ts:14-16 | an issued token verifies to its user id for 24 hours and not after, given the library's guarantees |
| Tokens.SameSecondSameToken | backend/controllers/userController.ts:16 | two tokens for one user in the same second are the same string |
| Auth.BearerToken | backend/middleware/auth.ts:21 | there is a second word exactly when the header has a space, and it contains no space |
| Auth.AuthMiddleware | backend/middleware/auth.ts:13-38 | at most one write, always a 401 failure; `next()` only after a well-formed, verified header; a rejected request gets one write and no user; a verified token naming a stored user attaches that user and calls `next()` with nothing written; the outcomes for a missing header, a failed verification or lookup, and a missing user |
| Auth.BearerTokenIsFirstWord | backend/middleware/auth.ts:21 | the token is the text after "Bearer " up to the next space |
| Auth.BearerTokenExact | backend/middleware/auth.ts:21 | `"Bearer " + t` yields `t` when `t` has no space (so `"Bearer "` alone yields "") |
| Auth.IssuedTokenAuthenticates | backend/middleware/auth.ts:24-32 | a token from `createToken(u.id)`, presented within 24 hours, attaches `u` and calls `next()` with nothing written |
| Auth.AuthMiddlewareCorrected | backend/middleware/auth.ts:28-32 | `next()` runs iff nothing is written iff a stored user is attached, so a handler always sees a user id |
| Auth.CorrectionOnlyAffectsMissingUser | backend/middleware/auth.ts:28-32 | the correction differs from the gate only on the user-not-found path |
| TaskController.NewTaskFields | backend/controllers/taskController.ts:13-28 | `completed` is true iff the body's is the boolean `true`; `owner` comes from the requester; the four copied fields equal the body's; no other key |
| TaskController.CreateTask | backend/controllers/taskController.ts:11-35 | one write; a validation failure, then a failed save, gives 400 and leaves the store alone; otherwise 201, the store gains exactly the new task, owned by the requester, and the reply echoes it |
| TaskController.CreateIgnoresBodyOwner | backend/controllers/taskController.ts:13-27 | two bodies that differ only in `owner` give the same outcome |
| TaskController.GetTasks | backend/controllers/taskController.ts:38-46 | the list holds exactly the tasks the owner filter matches, as stored; a fault gives a 400 |
| TaskController.CreateThenList | backend/controllers/taskController.ts:21-40 | a created task joins its owner's list and no other user's list changes |
| TaskController.ListsAreDisjoint | backend/controllers/taskController.ts:40 | two users' lists share no task |
| TaskController.NormalizeCompleted | backend/controllers/taskController.ts:65-68 | a defined `completed` becomes true iff it is `true` or `"true"`; an absent one stays absent; every other field passes through |
| TaskController.NormalizeIdempotent | backend/controllers/taskController.ts:65-68 | normalizing twice is normalizing once |
| TaskController.UpdateTask | backend/controllers/taskController.ts:63-83 | only the task matching id and owner can change; an update failing its cast or validators gives the catch block's single 500 whether or not a task matches; then a fault gives one 500 and no change; a valid update of the matching task is stored and echoed with 200; no match gives a 404 and then the success body, still with status 404 |
| TaskController.DeleteTask | backend/controllers/taskController.ts:86-96 | the store loses the matching task iff one matches and the query works, and nothing else changes; a fault gives 500; no match gives a 404 and then "Task deleted", still with status 404 |
| TaskController.OthersCannotTouch | backend/controllers/taskController.ts:70-74 | an update without `owner`, or a delete, by an authenticated user leaves every other user's list unchanged |
| TaskController.NoUserReachesEveryTask | backend/controllers/taskController.ts:40 | without a user, the list holds every task and a delete removes any task by id |
| TaskController.StaleTokenDeletesAnyTask | backend/controllers/taskController.ts:88 | a token naming a deleted user passes the gate, and the delete that follows removes a task another user owns |
| TaskController.CorrectedGateKeepsOthersTasks | backend/controllers/taskController.ts:88 | behind the corrected gate, a delete leaves every other user's list unchanged |
| TaskController.UpdateCanReassignOwner | backend/controllers/taskController.ts:65-74 | an update whose body names another owner moves the task into that user's list |
| TaskController.UpdateTaskCorrected | backend/controllers/taskController.ts:76-79 | one response and the store effect of the original; an invalid update or a fault gives a single 500; a valid update of the matching task is stored and a single 200 echoes it; no match gives a single 404 and changes nothing |
| TaskController.DeleteTaskCorrected | backend/controllers/taskController.ts:89-92 | one response; a fault gives a single 500 and removes nothing; a matching task is removed with a single 200 "Task deleted"; no match gives a single 404 and removes nothing |
| UserController.FindOwnEmail | backend/controllers/userController.ts:68 | with unique e-mails, looking up a stored user's e-mail finds that user |
| UserController.RegisterRejection | backend/controllers/userController.ts:26-39 | registration proceeds iff the three fields are truthy, the e-mail is a valid string and the password is not too short; every answered rejection is a single 400; only a truthy non-string e-mail goes unanswered |
| UserController.RegisterUser | backend/controllers/userController.ts:19-56 | the validation order with its responses; every input is answered except a truthy non-string e-mail, on which `isEmail` throws; a fault gives 500; valid input with a string password stores exactly the hashed new user and ends with a 201 session carrying only id, name and e-mail; a non-string password ends with 500; a taken e-mail writes 409 and then a second response |
| UserController.RegisterPasswordBoundary | backend/controllers/userController.ts:36-39 | a 7-character password is refused with 400 and an 8-character one is not |
| UserController.RegisterDuplicateBreaksUniqueness | backend/controllers/userController.ts:42-47 | registering a taken e-mail stores a second account with it |
| UserController.RegisterUserCorrected | backend/controllers/userController.ts:42-44 | one response; rejections and a fault answer as the original; a taken e-mail gives a single 409 and stores nothing; a free e-mail with a string password stores exactly the new account and answers a single 201 with its session; a new account never takes an e-mail already stored |
| UserController.RegisterCorrectedKeepsEmailsUnique | backend/controllers/userController.ts:42-47 | the corrected registration keeps e-mails unique |
| UserController.LoginUser | backend/controllers/userController.ts:59-88 | the store is read only; missing fields give 400, a fault 500, an unknown e-mail 401; the right password gives a single 200 session; a token goes only to the account holding the e-mail; a wrong password writes 401 and then the session, still with status 401 |
| UserController.LoginUserCorrected | backend/controllers/userController.ts:76-78 | one response and the store unchanged; missing fields 400, a fault 500, an unknown e-mail 401; the right password gives a single 200 with the account's session; a wrong password gives a single 401 and no token; a non-string password gives a single 500; wherever the original answers once, the correction answers the same; a token only for the right password |
| UserController.RegisterThenLogin | backend/controllers/userController.ts:19-81 | after a registration, logging in with the same body returns one 200 session for the new account |
| UserController.FindEmailPastPrefix | backend/controllers/userController.ts:68 | a lookup that misses the old store finds the appended user |
| UserController.GetCurrentUser | backend/controllers/userController.ts:91-103 | one write; fault 500, missing user 400, a found user 200 with its own public fields |
| UserController.GateThenCurrentUser | backend/controllers/userController.ts:91-98 | after the gate attaches a user, the current-user reply is that user |
| UserController.UpdateProfile | backend/controllers/userController.ts:106-130 | the store never changes; a truthy non-string e-mail gives no response and every other input is answered; invalid input writes 400 and then a second response; another account's e-mail ends with 409; every other path ends with the catch block's 400, so no write succeeds |
| UserController.UpdateProfileCorrected | backend/controllers/userController.ts:109-125 | one response to every input except a truthy non-string e-mail; a single 400 for invalid input; with valid input, a single 409 with nothing stored iff another account holds the e-mail; only the requester's name and e-mail change, and a success stores and returns them |
| UserController.ProfileCorrectedKeepsEmailsUnique | backend/controllers/userController.ts:114-124 | the corrected profile update keeps e-mails unique |
| UserController.ProfileUpdateThenCurrentUser | backend/controllers/userController.ts:120-125 | after a corrected profile update, the current user shows the new name and e-mail |
| UserController.UpdatePassword | backend/controllers/userController.ts:133-160 | one response; checks in order 400, 500 on a fault, 404, 401; passing them stores the new hash and answers 200; every rejection leaves the store unchanged; only the requester's hash can change, to the hash of the new password, after the current one matched |
| UserController.PasswordChangeThenLogin | backend/controllers/userController.ts:133-154 | after a password change, logging in with the new password returns a session for that account |
| UserController.SameIdsSameIndex | backend/controllers/userController.ts:152-153 | changing a user's password keeps every id lookup at the same position |
| Layout.ExtractTasks | frontend/src/components/Layout.tsx:38-40 | the array itself, else `data.tasks`, else `data.data` if an array, else empty |
| Layout.IsCompleted | frontend/src/components/Layout.tsx:62-66 | a task counted as completed has a truthy `completed`; `true` counts; a missing, `null`, `false` or `0` flag does not |
| Layout.CompletedForms | frontend/src/components/Layout.tsx:62-66 | completed iff `true`, `1` or a case variant of "yes"; `"true"`, `false`, `0` do not count |
| Layout.CompletedOnes | frontend/src/components/Layout.tsx:62-66 | the filter keeps only completed tasks, drawn from the list, no more than it has |
| Layout.CountMatchesPositions | frontend/src/components/Layout.tsx:62-66 | the filtered length equals the number of positions holding a completed task |
| Layout.RoundedPercent | frontend/src/components/Layout.tsx:70 | for `t > 0`, `p` is the floor of `100c/t + 1/2`; 0 for no tasks; between 0 and 100; 100 when all are done; 0 when none are |
| Layout.ComputeStats | frontend/src/components/Layout.tsx:61-79 | total is the length; completed counts completed positions and is at most total; pending is the difference, never negative; the percentage is the rounded share |
| Layout.PercentExamples | frontend/src/components/Layout.tsx:70 | 1 of 8 gives 13, 2 of 3 gives 67, 1 of 3 gives 33 |
| Layout.FetchTasks | frontend/src/components/Layout.tsx:26-57 | `loading` ends false; no token gives "No auth token found" with the list kept; the error is cleared iff a reply arrived, which then replaces the list; only a 401 logs out; a failed request shows its own message |
| Layout.FetchServerList | frontend/src/components/Layout.tsx:34-42 | the list in a `{success, tasks}` reply is extracted unchanged and shown with no error |

## Left out

- `getTaskById` (taskController.ts:49-60): it passes a filter object to `findById` and calls `res.json(404).json(..)`. Its behaviour depends on Mongoose casting and Express internals.
- TaskController.GetTasks: returns the owned tasks as a map, not the list sorted by `createAt`. The schema that would define that field is not part of this model.
- TaskController.UpdateTask: a task id that is not a valid ObjectId makes the query throw a `CastError`, answered with 500. The model treats it as an id that matches nothing, so it answers 404 and then the fall-through write. The same holds for TaskController.DeleteTask.
- TaskController.UpdateTask: which updates fail Mongoose's casting and update validators is a parameter of the model (`validateUpdate`), as is the schema. Only the update's own paths are checked, never the merged document, as update validators do.
- TaskController.CreateTask: the schema's casting and defaults are not applied to the saved task; the reply echoes the fields as built.
- UserController.UpdateProfile: the 400 for the valid path rests on `JSON.stringify` failing on the un-awaited Query object's circular references. If a Mongoose version serialised the Query, the reply would be a 200 with that object instead. Either way nothing is stored.
- UserController.UpdateProfileCorrected: the update's schema validators (`runValidators`) are not modelled, and a missing requester finds no account, as `findById(undefined)` does.
- UserController.GetCurrentUser: the `select("name email.")` projection is not modelled. The reply carries the public view. MongoDB 4.4 and later most likely rejects a projection path ending in `.`; if so, every request that reaches the database answers 500 "Server Error.", and the 200 stated here, like UserController.GateThenCurrentUser and UserController.ProfileUpdateThenCurrentUser, holds only on servers that accept the path.
- Layout.RoundedPercent: computes `Math.round(c / t * 100)` exactly, not in floating point. The two can differ at a tie. For 29 of 200, the exact value is 15, while `0.145 * 100` evaluates slightly below 14.5.
- Layout.IsCompleted: lowercases ASCII letters only. JavaScript's Unicode case mapping is not modelled.
- Js.LengthBelow: takes a string's length as its number of characters, where JavaScript counts UTF-16 code units.
- Js.ToNumber: converts blank strings and optionally signed decimal digits. Decimal points, exponents, hex, binary and octal prefixes, `Infinity` and non-ASCII whitespace are treated as `NaN`.
- Js.Json: numbers are integers only. Fractions, NaN and infinities are not modelled.
- Models.FindUserByEmail: a defined non-string query value never matches a stored e-mail. Mongoose's casting and query operators in request bodies are not modelled.
- Models.FindOtherByEmail: `_id: {$ne: undefined}` is taken to exclude no user.
- Models.FindUserById: any string is accepted as an id. The ObjectId format check (a `CastError`) is not modelled.
- Layout.CompletedForms: a `null` array element reads as `undefined`. In JavaScript, `t.completed` on `null` throws inside `useMemo`.
- Auth.AuthMiddleware: the case where `jwt.verify` returns a payload with no `id` is modelled as `Claims(None)`, which finds no user. Non-string ids are not modelled.
- Database failures: they are reduced to one flag, `Env.fault`, which makes the handler's first database call throw. A failure in a later call (`save`, `create`) is not modelled separately.
- What Express does after a second write, and with a handler promise that rejects, is not modelled, because it depends on the Express major version, which the modelled files do not fix. The model records the attempted writes up to the second and marks the request as answered. Where the second write throws "headers already sent" inside a `catch`, that catch's own write throws again and the promise rejects. The same holds for an `Unhandled` handler. Under Express 4 the rejection is ignored by Express; on Node 15 and later an unhandled rejection ends the process, and a client waiting on an `Unhandled` request gets no response. Under Express 5 the rejection goes to the default error handler, which answers 500 when nothing was sent and closes the connection otherwise.
- `registerUser`: the schema is assumed to have no unique index on `email`. The user model file is not part of this model.
- Cryptography: JWT signing and verification, bcrypt and e-mail syntax are library parameters, not modelled.
- The frontend's rendering, effect scheduling, axios networking and `localStorage` are not modelled. The stored token and the request outcome are parameters of `Layout.FetchTasks`. The request URL `/api/tasks/gp` is not checked against the backend routes.
- `backend/server.ts`, `App.tsx`, `Login.tsx` and `SignUp.tsx` are not part of this model. They hold wiring and UI with no decision logic.
- Logging (`console.log`) is not modelled.

## Findings

Most rows are about a branch that writes an error response and does not `return`. The handler goes on to write a second response. A bare `res.json` keeps the error's status, and the second write cannot reach the client once the first was sent, so the client sees the error (what follows on the server depends on the Express version; see "## Left out"). The rest of the handler still runs, though, with the effects listed below.

| source | as written | input that shows it | evidently intended | confidence | as-written member | corrected member |
|---|---|---|---|---|---|---|
| backend/middleware/auth.ts:28-32 | a verified token for a missing user writes 401 and still calls `next()` with `req.user = null` | a validly signed token whose user was deleted | return after the 401 | high; not executed | Auth.AuthMiddleware | Auth.AuthMiddlewareCorrected |
| backend/controllers/taskController.ts:88 | after that fall-through the filter `{_id: id, owner: undefined}` loses its owner key, so the delete removes the task whoever owns it | a deleted user's unexpired token and another user's task id | no handler runs without a user | medium; not executed | TaskController.StaleTokenDeletesAnyTask | TaskController.CorrectedGateKeepsOthersTasks |
| backend/controllers/taskController.ts:76-79 | no matching task writes 404 and then `{success: true, updated: null}` with status 404 | a valid update body for an id that belongs to another user | return after the 404 | high; not executed | TaskController.UpdateTask | TaskController.UpdateTaskCorrected |
| backend/controllers/taskController.ts:89-92 | no matching task writes 404 and then "Task deleted" with status 404 | delete of an id that does not exist | return after the 404 | high; not executed | TaskController.DeleteTask | TaskController.DeleteTaskCorrected |
| backend/controllers/userController.ts:42-47 | a taken e-mail writes 409, then hashes and creates a second account with that e-mail | registering an e-mail twice with valid fields | return after the 409 | high; not executed | UserController.RegisterDuplicateBreaksUniqueness | UserController.RegisterCorrectedKeepsEmailsUnique |
| backend/controllers/userController.ts:76-78 | a wrong password writes 401 and then signs a token and attempts the session write, still with status 401 | a registered e-mail with a wrong password | return after the 401 | high; not executed | UserController.LoginUser | UserController.LoginUserCorrected |
| backend/controllers/userController.ts:109-111 | invalid name or e-mail writes 400 and then runs the lookup and a second write | an empty `name` | return after the 400 | high; not executed | UserController.UpdateProfile | UserController.UpdateProfileCorrected |
| backend/controllers/userController.ts:120-125 | the update query is never awaited, so nothing is stored, and `res.json` of the Query object fails, so the catch answers 400 "Server Error." | a valid name and a free e-mail | await the update and reply with the updated user | medium; not executed | UserController.UpdateProfile | UserController.ProfileUpdateThenCurrentUser |

=== FILE: auth.dfy ===
/** The authentication middleware: reads the `Authorization` header, verifies
    the bearer token, looks the user up and attaches it to the request before
    handing over to the route handler with `next()`. */
module Auth {
  import opened Js
  import opened Models
  import opened Http
  import opened Tokens

  const BearerPrefix := "Bearer "
  const TokenMissing := "Not Authorized, token missing"
  const UserNotFound := "User not found"
  const TokenInvalid := "Token invalid or spired."

  /** What `req.user` holds when the gate is done: never assigned, assigned
      `null` (user lookup found nothing), or the user without its password. */
  datatype Attached = Untouched | NullUser | Authenticated(user: PublicUser)

  /** The gate's effect: responses written, `req.user`, and whether `next()` ran. */
  datatype GateResult = GateResult(writes: seq<Response>, attached: Attached, next: bool)

  /** `req.user?.id` as the next handler reads it. */
  function Requester(a: Attached): Option<UserId> {
    match a
    case Authenticated(u) => Some(u.id)
    case _ => None
  }

  /** `authHeader.split(" ")[1]`; `None` stands for `undefined`, which is
      what a header without a space gives. */
  function BearerToken(header: string): (token: Option<string>)
    ensures token.Some? <==> ' ' in header
    ensures token.Some? ==> ' ' !in token.value
  {
    var parts := Split(header, ' ');
    SplitsAtSeparator(header, ' ');
    if |parts| >= 2 then Some(parts[1]) else None
  }

  /** `jwt.verify(token, JWT_SECRET)`: the payload, or `None` when it throws
      (an `undefined` token throws too). */
  function VerifiedClaims(header: string, s: Services, env: Env): Option<Claims> {
    match BearerToken(header)
    case None => None
    case Some(t) => s.verify(t, JwtSecret(s.secretVar), Seconds(env.nowMs))
  }

  /** `authMiddleware(req, res, next)`. `env.fault` makes `User.findById` throw. */
  function AuthMiddleware(header: Option<string>, users: seq<User>, s: Services, env: Env): (g: GateResult)
    // the gate answers with at most one response, and only ever a 401 failure
    ensures |g.writes| <= 1
    ensures forall i :: 0 <= i < |g.writes| ==> g.writes[i].status == 401 && !Succeeds(g.writes[i].body)
    // no handler runs without a well-formed, verified bearer token
    ensures g.next ==> header.Some? && StartsWith(header.value, BearerPrefix)
    ensures g.next ==> VerifiedClaims(header.value, s, env).Some? && env.fault.None?
    // a rejected request has exactly one response and no user attached
    ensures !g.next ==> g.attached == Untouched && |g.writes| == 1
    // an attached identity is the stored user the token names, and nothing is written
    ensures g.attached.Authenticated? ==>
              && g.next && g.writes == []
              && exists u :: u in users && PublicView(u) == g.attached.user
                             && VerifiedClaims(header.value, s, env) == Some(Claims(Some(u.id)))
    // missing header or wrong scheme (case-sensitive): one 401 "token missing"
    ensures header.None? || !StartsWith(header.value, BearerPrefix) ==>
              g == GateResult([Response(401, Failure(TokenMissing))], Untouched, false)
    // verification or lookup throws: one 401 "Token invalid or spired."
    ensures header.Some? && StartsWith(header.value, BearerPrefix) &&
            (VerifiedClaims(header.value, s, env).None? || env.fault.Some?) ==>
              g == GateResult([Response(401, Failure(TokenInvalid))], Untouched, false)
    // verified but no such user: a 401 is written and yet `next()` still runs with `req.user = null`
    ensures header.Some? && StartsWith(header.value, BearerPrefix) && env.fault.None? &&
            VerifiedClaims(header.value, s, env).Some? &&
            FindUserById(users, VerifiedClaims(header.value, s, env).value.id).None? ==>
              g == GateResult([Response(401, Failure(UserNotFound))], NullUser, true)
    // verified and stored: that user is attached, `next()` runs, nothing is written
    ensures header.Some? && StartsWith(header.value, BearerPrefix) && env.fault.None? &&
            VerifiedClaims(header.value, s, env).Some? &&
            FindUserById(users, VerifiedClaims(header.value, s, env).value.id).Some? ==>
              g == GateResult([], Authenticated(PublicView(FindUserById(users, VerifiedClaims(header.value, s, env).value.id).value)), true)
  {
    if header.None? || !StartsWith(header.value, BearerPrefix) then
      GateResult([Response(401, Failure(TokenMissing))], Untouched, false)
    else match VerifiedClaims(header.value, s, env)
      case None => GateResult([Response(401, Failure(TokenInvalid))], Untouched, false)
      case Some(claims) =>
        if env.fault.Some? then
          GateResult([Response(401, Failure(TokenInvalid))], Untouched, false)
        else match FindUserById(users, claims.id)
          case None => GateResult([Response(401, Failure(UserNotFound))], NullUser, true)
          case Some(u) => GateResult([], Authenticated(PublicView(u)), true)
  }

  /** The token is the word after "Bearer ": everything up to the next space. */
  lemma BearerTokenIsFirstWord(rest: string)
    ensures BearerToken(BearerPrefix + rest).Some?
    ensures var t := BearerToken(BearerPrefix + rest).value;
            && t <= rest
            && ' ' !in t
            && (t == rest || rest[|t|] == ' ')
  {
    assert BearerPrefix + rest == "Bearer" + [' '] + rest;
    SplitAfterPrefix("Bearer", ' ', rest);
    FirstPartIsPrefix(rest, ' ');
  }

  /** `"Bearer " + t` yields `t` when `t` has no space; `"Bearer "` alone yields "". */
  lemma BearerTokenExact(t: string)
    requires ' ' !in t
    ensures BearerToken(BearerPrefix + t) == Some(t)
  {
    BearerTokenIsFirstWord(t);
  }

  /** Round trip with the issuer: within 24 hours, presenting a token from
      `createToken(u.id)` attaches user `u` and calls `next()` with nothing
      written, provided signed tokens contain no space. */
  lemma IssuedTokenAuthenticates(u: User, users: seq<User>, s: Services, issuedMs: nat, env: Env)
    requires SignVerifyAgree(s)
    requires ' ' !in CreateToken(u.id, s, issuedMs)
    requires FindUserById(users, Some(u.id)) == Some(u)
    requires env.fault.None?
    requires issuedMs <= env.nowMs && Seconds(env.nowMs) < Seconds(issuedMs) + TokenLifetime
    ensures AuthMiddleware(Some(BearerPrefix + CreateToken(u.id, s, issuedMs)), users, s, env)
              == GateResult([], Authenticated(PublicView(u)), true)
  {
    var token := CreateToken(u.id, s, issuedMs);
    var r := TokenRequest(u.id, s, issuedMs);
    BearerTokenExact(token);
    assert Seconds(issuedMs) <= Seconds(env.nowMs);
    assert s.verify(s.sign(r), r.secret, Seconds(env.nowMs)) == Some(r.payload);
    assert VerifiedClaims(BearerPrefix + token, s, env) == Some(Claims(Some(u.id)));
  }

  /** The gate as evidently intended: the "User not found" branch returns
      instead of falling through to `next()`. */
  function AuthMiddlewareCorrected(header: Option<string>, users: seq<User>, s: Services, env: Env): (g: GateResult)
    // exactly one of: a single 401, or `next()` with an authenticated user
    ensures g.next <==> g.writes == []
    ensures g.next <==> g.attached.Authenticated?
    // so a handler behind it always sees a defined `req.user.id`
    ensures g.next ==> Requester(g.attached).Some?
    ensures !g.next ==> |g.writes| == 1 && g.writes[0].status == 401 && g.attached == Untouched
    ensures g.attached.Authenticated? ==>
              && header.Some?
              && exists u :: u in users && PublicView(u) == g.attached.user
                          && VerifiedClaims(header.value, s, env) == Some(Claims(Some(u.id)))
  {
    var g := AuthMiddleware(header, users, s, env);
    if g.attached == NullUser then
      GateResult([Response(401, Failure(UserNotFound))], Untouched, false)
    else g
  }

  /** The correction changes only the user-not-found path. */
  lemma CorrectionOnlyAffectsMissingUser(header: Option<string>, users: seq<User>, s: Services, env: Env)
    ensures var g := AuthMiddleware(header, users, s, env);
            var c := AuthMiddlewareCorrected(header, users, s, env);
            && (g.attached != NullUser ==> c == g)
            && (g.attached == NullUser ==> c.writes == g.writes && g.next && !c.next)
  {
  }
}

=== FILE: http.dfy ===
/** What a handler does to the HTTP response. Every `res.status(..).json(..)`
    or `res.json(..)` call a handler makes is one entry of `writes`; a handler
    that forgets to `return` after an error response therefore shows up as a
    sequence of two writes. A bare `res.json(..)` keeps the status an earlier
    `res.status(..)` set, so such a second write carries the error's status. */
module Http {
  import opened Js
  import opened Models

  /** The JSON envelopes the handlers send. */
  datatype Body =
    | Failure(message: string)                 // {success: false, message}
    | MisspelledFailure(message: string)       // {sucess: false, message}: no `success` key
    | TaskSaved(id: TaskId, task: Task)        // {success: true, task}
    | TaskList(tasks: map<TaskId, Task>)       // {success: true, tasks}
    | TaskUpdated(updated: Option<Task>)       // {success: true, updated}, updated may be null
    | Notice(message: string)                  // {success: true, message}
    | Session(token: string, user: PublicUser) // {success: true, token, user: {id, name, email}}
    | CurrentUser(user: PublicUser)            // {success: true, user}
    | ProfileUpdated(profile: Option<PublicUser>) // {success: true, user}, user may be null

  datatype Response = Response(status: int, body: Body)

  /** How the handler's promise ends: normally, or rejected by an exception
      raised outside any `try` (the handler then sends nothing; what the
      client sees depends on how Express treats a rejected handler). */
  datatype Settled = Completed | Unhandled

  /** The observable effect of one handler call on store `S`. */
  datatype Handled<S> = Handled(writes: seq<Response>, store: S, settled: Settled)

  /** The envelope's `success` field, where it has one. */
  predicate Succeeds(b: Body) {
    !b.Failure? && !b.MisspelledFailure?
  }

  /** Exactly one response for the request, the shape every handler is meant to have. */
  predicate AnswersOnce<S>(h: Handled<S>) {
    h.settled == Completed ==> |h.writes| == 1
  }
}

=== FILE: js.dfy ===
/** JavaScript values as the handlers see them: parsed JSON request bodies,
    plus `undefined` for a property that is absent. Numbers are integers
    (fractions and NaN are not modelled). */
module Js {

  /** An optional value: a header that may be missing, a lookup that may fail. */
  datatype Option<+T> = None | Some(value: T)

  datatype Json =
    | Undefined
    | Null
    | Bool(b: bool)
    | Num(n: int)
    | Str(s: string)
    | Arr(items: seq<Json>)
    | Obj(props: map<string, Json>)

  /** A plain object, such as a parsed request body. */
  type Object = map<string, Json>

  /** `o.key`: the property, or `undefined` when it is absent. */
  function Prop(o: Object, key: string): Json {
    if key in o then o[key] else Undefined
  }

  /** `v?.key` for any value: only objects have named properties here. */
  function Member(v: Json, key: string): Json {
    match v
    case Obj(o) => Prop(o, key)
    case _ => Undefined
  }

  /** JavaScript truthiness: `!v` is `!Truthy(v)`. The falsy values are
      exactly `undefined`, `null`, `false`, `0` and "". */
  function Truthy(v: Json): (b: bool)
    ensures !b <==> v in {Undefined, Null, Bool(false), Num(0), Str("")}
  {
    match v
    case Undefined => false
    case Null => false
    case Bool(b) => b
    case Num(n) => n != 0
    case Str(s) => s != ""
    case Arr(_) => true
    case Obj(_) => true
  }

  /** The whitespace `Number(s)` strips from both ends (ASCII only). */
  predicate IsSpace(c: char) {
    c == ' ' || c == '\t' || c == '\n' || c == '\r' || c as int == 11 || c as int == 12
  }

  /** Every character of `x` is whitespace. */
  predicate AllSpaces(x: string) {
    forall k :: 0 <= k < |x| ==> IsSpace(x[k])
  }

  /** `t` is `s` with some whitespace cut off at each end. */
  predicate MiddleOf(t: string, s: string) {
    exists i, j :: 0 <= i <= j <= |s| && t == s[i..j] && AllSpaces(s[..i]) && AllSpaces(s[j..])
  }

  /** Cutting one more space off the front keeps `t` a middle. */
  lemma MiddleAfterFront(t: string, s: string)
    requires s != [] && IsSpace(s[0]) && MiddleOf(t, s[1..])
    ensures MiddleOf(t, s)
  {
    var i, j :| 0 <= i <= j <= |s[1..]| && t == s[1..][i..j] && AllSpaces(s[1..][..i]) && AllSpaces(s[1..][j..]);
    assert t == s[i + 1..j + 1];
    assert s[j + 1..] == s[1..][j..];
    var front := s[..i + 1];
    forall k | 0 <= k < |front| ensures IsSpace(front[k]) {
      if k > 0 {
        assert front[k] == s[1..][..i][k - 1];
      }
    }
  }

  /** Cutting one more space off the back keeps `t` a middle. */
  lemma MiddleAfterBack(t: string, s: string)
    requires s != [] && IsSpace(s[|s| - 1]) && MiddleOf(t, s[..|s| - 1])
    ensures MiddleOf(t, s)
  {
    var p := s[..|s| - 1];
    var i, j :| 0 <= i <= j <= |p| && t == p[i..j] && AllSpaces(p[..i]) && AllSpaces(p[j..]);
    assert t == s[i..j];
    assert s[..i] == p[..i];
    var back := s[j..];
    forall k | 0 <= k < |back| ensures IsSpace(back[k]) {
      if k < |back| - 1 {
        assert back[k] == p[j..][k];
      }
    }
  }

  /** `s.trim()`: the whitespace at both ends cut off. */
  function Trim(s: string): (t: string)
    ensures |t| <= |s|
    ensures t != [] ==> !IsSpace(t[0]) && !IsSpace(t[|t| - 1])
    decreases |s|
  {
    if s != [] && IsSpace(s[0]) then Trim(s[1..])
    else if s != [] && IsSpace(s[|s| - 1]) then Trim(s[..|s| - 1])
    else s
  }

  /** What `Trim` keeps is a slice of `s`, and what it cuts off is whitespace. */
  lemma {:induction false} TrimIsMiddle(s: string)
    ensures MiddleOf(Trim(s), s)
    decreases |s|
  {
    if s != [] && IsSpace(s[0]) {
      TrimIsMiddle(s[1..]);
      MiddleAfterFront(Trim(s), s);
    } else if s != [] && IsSpace(s[|s| - 1]) {
      TrimIsMiddle(s[..|s| - 1]);
      MiddleAfterBack(Trim(s), s);
    } else {
      assert s == s[0..|s|] && AllSpaces(s[..0]) && AllSpaces(s[|s|..]);
    }
  }

  predicate IsDigit(c: char) {
    '0' <= c <= '9'
  }

  predicate AllDigits(s: string) {
    forall i :: 0 <= i < |s| ==> IsDigit(s[i])
  }

  /** The value of a string of decimal digits. */
  function DigitsValue(d: string): nat
    requires AllDigits(d)
    decreases |d|
  {
    if d == [] then 0
    else DigitsValue(d[..|d| - 1]) * 10 + (d[|d| - 1] as int - '0' as int)
  }

  /** `String(n)` for a natural number: its decimal digits, no leading zero. */
  function NatToDigits(n: nat): (d: string)
    ensures |d| >= 1 && AllDigits(d)
    // only zero itself starts with '0'
    ensures d[0] == '0' <==> n == 0
    decreases n
  {
    var last := ('0' as int + n % 10) as char;
    if n < 10 then [last] else NatToDigits(n / 10) + [last]
  }

  /** Reading back the digits of `n` gives `n`. */
  lemma {:induction false} DigitsRoundTrip(n: nat)
    ensures DigitsValue(NatToDigits(n)) == n
    decreases n
  {
    if n >= 10 {
      var d := NatToDigits(n);
      assert d[..|d| - 1] == NatToDigits(n / 10);
      DigitsRoundTrip(n / 10);
      assert n == n / 10 * 10 + n % 10;
    }
  }

  /** `Number(s)` for the strings this model covers: blank gives 0, an
      optionally signed run of decimal digits gives its value; any other
      string gives `None`, standing for `NaN`. */
  function ParseDecimal(s: string): Option<int> {
    var t := Trim(s);
    if t == [] then Some(0)
    else if (t[0] == '-' || t[0] == '+') && |t| > 1 && AllDigits(t[1..]) then
      var magnitude: int := DigitsValue(t[1..]);
      Some(if t[0] == '-' then -magnitude else magnitude)
    else if AllDigits(t) then Some(DigitsValue(t))
    else None
  }

  /** `Number(String(n))` and `Number(String(-n))` give back `n` and `-n`. */
  lemma ParseDecimalRoundTrip(n: nat)
    ensures ParseDecimal(NatToDigits(n)) == Some(n)
    ensures ParseDecimal("-" + NatToDigits(n)) == Some(-(n as int))
  {
    DigitsRoundTrip(n);
    var d := NatToDigits(n);
    assert IsDigit(d[0]) && IsDigit(d[|d| - 1]);
    assert Trim(d) == d;
    var m := "-" + d;
    assert m[1..] == d && m[0] == '-' && m[|m| - 1] == d[|d| - 1];
    assert Trim(m) == m;
    assert AllDigits(m[1..]);
  }

  /** `Number(v)`, the conversion `<` applies to a non-number operand; `None`
      is `NaN`. An array converts through its string form, so only an empty
      or one-element array gives a number. */
  function ToNumber(v: Json): Option<int>
    decreases v, 0
  {
    match v
    case Undefined => None
    case Null => Some(0)
    case Bool(b) => Some(if b then 1 else 0)
    case Num(n) => Some(n)
    case Str(s) => ParseDecimal(s)
    case Arr(items) =>
      if |items| == 0 then Some(0)
      else if |items| == 1 then ElementNumber(items[0])
      else None
    case Obj(_) => None
  }

  /** `Number(String(v))` for the single element of an array: `null` and
      `undefined` print as "", `true` and `false` as words. */
  function ElementNumber(v: Json): Option<int>
    decreases v, 1
  {
    match v
    case Undefined => Some(0)
    case Null => Some(0)
    case Bool(_) => None
    case Num(n) => Some(n)
    case Str(s) => ParseDecimal(s)
    case Arr(_) => ToNumber(v)
    case Obj(_) => None
  }

  /** `v.length < bound`, evaluated only on truthy values (so it never throws).
      Strings and arrays have a length. An object has whatever its `length`
      property holds, converted with `Number`, and `NaN < bound` is false.
      Booleans and numbers have no `length`, so the comparison is false. */
  function LengthBelow(v: Json, bound: int): (r: bool)
    requires Truthy(v)
    // numbers and booleans have no length
    ensures r ==> v.Str? || v.Arr? || v.Obj?
    // a string or array length is never negative
    ensures (v.Str? || v.Arr?) && bound <= 0 ==> !r
    // an object without `length` compares NaN
    ensures v.Obj? && "length" !in v.props ==> !r
  {
    match v
    case Str(s) => |s| < bound
    case Arr(a) => |a| < bound
    case Obj(o) => var n := ToNumber(Prop(o, "length")); n.Some? && n.value < bound
    case _ => false
  }

  /** Worked values of the length check against 8 on objects: `null` counts
      as 0, `true` as 1, and a numeric string, alone or in an array, as its number. */
  lemma LengthBelowObjects()
    ensures LengthBelow(Obj(map["length" := Null]), 8)
    ensures LengthBelow(Obj(map["length" := Bool(true)]), 8)
    ensures LengthBelow(Obj(map["length" := Str(" 3 ")]), 8)
    ensures LengthBelow(Obj(map["length" := Arr([Str("7")])]), 8)
  {
    assert Trim(" 3 ") == "3";
  }

  /** Worked values against 8 that are not below: a larger numeric string,
      a non-numeric string (`NaN`), and no `length` at all. */
  lemma LengthNotBelowObjects()
    ensures !LengthBelow(Obj(map["length" := Str("12")]), 8)
    ensures !LengthBelow(Obj(map["length" := Str("abc")]), 8)
    ensures !LengthBelow(Obj(map[]), 8)
  {
    assert Trim("12") == "12";
    assert DigitsValue("12") == 12 by {
      assert "12"[..1] == "1";
    }
    assert Trim("abc") == "abc";
  }

  /** `s.startsWith(prefix)`: the first `|prefix|` characters match one by one. */
  function StartsWith(s: string, prefix: string): (r: bool)
    ensures r <==> |prefix| <= |s| && forall i :: 0 <= i < |prefix| ==> s[i] == prefix[i]
    ensures r ==> s == prefix + s[|prefix|..]
  {
    |prefix| <= |s| && s[..|prefix|] == prefix
  }

  /** `toLowerCase` restricted to ASCII letters. */
  function LowerAscii(c: char): char {
    if 'A' <= c <= 'Z' then (c as int + 32) as char else c
  }

  function ToLowerAscii(s: string): string {
    seq(|s|, i requires 0 <= i < |s| => LowerAscii(s[i]))
  }

  /** The inverse of `Split`: the parts glued back with the separator between them. */
  function Join(parts: seq<string>, sep: char): string
    decreases |parts|
  {
    if |parts| == 0 then []
    else if |parts| == 1 then parts[0]
    else parts[0] + [sep] + Join(parts[1..], sep)
  }

  /** `s.split(sep)` for a one-character separator: never empty, no part
      contains the separator, and joining the parts gives back `s`. */
  function Split(s: string, sep: char): (parts: seq<string>)
    ensures |parts| >= 1
    ensures forall i :: 0 <= i < |parts| ==> sep !in parts[i]
    ensures Join(parts, sep) == s
    decreases |s|
  {
    if s == [] then [[]]
    else
      var rest := Split(s[1..], sep);
      if s[0] == sep then
        assert ([[]] + rest)[1..] == rest;
        [[]] + rest
      else
        var parts := [[s[0]] + rest[0]] + rest[1..];
        assert parts[1..] == rest[1..];
        assert Join(parts, sep) == s by {
          if |rest| > 1 {
            assert Join(rest, sep) == rest[0] + [sep] + Join(rest[1..], sep);
            assert s == [s[0]] + s[1..];
          }
        }
        parts
  }

  /** The split has a second part exactly when the separator occurs. */
  lemma SplitsAtSeparator(s: string, sep: char)
    ensures |Split(s, sep)| >= 2 <==> sep in s
  {
    var parts := Split(s, sep);
    if |parts| >= 2 {
      assert s == parts[0] + [sep] + Join(parts[1..], sep);
      assert s[|parts[0]|] == sep;
    }
  }

  /** A string without the separator splits into itself alone. */
  lemma SplitNoSeparator(s: string, sep: char)
    requires sep !in s
    ensures Split(s, sep) == [s]
  {
  }

  /** Splitting `p + sep + r`, where `p` holds no separator, yields `p`
      followed by the parts of `r`. */
  lemma {:induction false} SplitAfterPrefix(p: string, sep: char, r: string)
    requires sep !in p
    ensures Split(p + [sep] + r, sep) == [p] + Split(r, sep)
    decreases |p|
  {
    var s := p + [sep] + r;
    if p == [] {
      assert s == [sep] + r;
      assert s[1..] == r;
    } else {
      assert s[1..] == p[1..] + [sep] + r;
      assert sep !in p[1..] by {
        forall i | 0 <= i < |p[1..]| ensures p[1..][i] != sep {
          assert p[1..][i] == p[i + 1];
        }
      }
      SplitAfterPrefix(p[1..], sep, r);
      assert [p[0]] + p[1..] == p;
    }
  }

  /** The first part of a split is the longest separator-free prefix. */
  lemma FirstPartIsPrefix(s: string, sep: char)
    ensures var first := Split(s, sep)[0];
            && first <= s
            && sep !in first
            && (first == s || s[|first|] == sep)
  {
  }

  /** `toLowerCase() === "yes"` holds exactly for the eight spellings of
      "yes" in upper and lower case. */
  lemma LowerIsYes(s: string)
    ensures ToLowerAscii(s) == "yes" <==>
              |s| == 3 && s[0] in "yY" && s[1] in "eE" && s[2] in "sS"
  {
    if ToLowerAscii(s) == "yes" {
      var l := ToLowerAscii(s);
      assert |s| == 3;
      assert l[0] == 'y' && l[1] == 'e' && l[2] == 's';
      assert LowerAscii(s[0]) == 'y' && LowerAscii(s[1]) == 'e' && LowerAscii(s[2]) == 's';
    }
    if |s| == 3 && s[0] in "yY" && s[1] in "eE" && s[2] in "sS" {
      var l := ToLowerAscii(s);
      assert l[0] == 'y' && l[1] == 'e' && l[2] == 's';
      assert l == "yes";
    }
  }
}

=== FILE: layout.dfy ===
/** The dashboard's data logic: loading the task list and the statistics
    shown on the cards (total, completed, pending, completion rate). */
module Layout {
  import opened Js

  const NoToken := "No auth token found"
  const CouldNotLoad := "Could not load tasks."

  /** The task array inside the reply: the reply itself when it is an array,
      else its `tasks` field, else its `data` field, else nothing. */
  function ExtractTasks(data: Json): (arr: seq<Json>)
    ensures data.Arr? ==> arr == data.items
    ensures !data.Arr? && Member(data, "tasks").Arr? ==> arr == Member(data, "tasks").items
    ensures !data.Arr? && !Member(data, "tasks").Arr? && Member(data, "data").Arr? ==>
              arr == Member(data, "data").items
    ensures arr != [] ==> data.Arr? || Member(data, "tasks").Arr? || Member(data, "data").Arr?
  {
    if data.Arr? then data.items
    else if Member(data, "tasks").Arr? then Member(data, "tasks").items
    else if Member(data, "data").Arr? then Member(data, "data").items
    else []
  }

  /** The filter predicate of the "Completed" card. */
  function IsCompleted(t: Json): (r: bool)
    ensures r ==> Truthy(Member(t, "completed"))
    ensures Member(t, "completed") == Bool(true) ==> r
    ensures Member(t, "completed") in {Undefined, Null, Bool(false), Num(0)} ==> !r
  {
    var c := Member(t, "completed");
    c == Bool(true) || c == Num(1) || (c.Str? && ToLowerAscii(c.s) == "yes")
  }

  /** A task counts as completed exactly when `completed` is `true`, `1`, or
      "yes" in any mix of cases; `"true"`, `false` and `0` do not count. */
  lemma CompletedForms(t: Json)
    ensures IsCompleted(t) <==>
              var c := Member(t, "completed");
              || c == Bool(true)
              || c == Num(1)
              || (c.Str? && |c.s| == 3 && c.s[0] in "yY" && c.s[1] in "eE" && c.s[2] in "sS")
    ensures Member(t, "completed") in {Str("true"), Bool(false), Num(0)} ==> !IsCompleted(t)
  {
    var c := Member(t, "completed");
    if c.Str? {
      LowerIsYes(c.s);
    }
    if c == Str("true") {
      LowerIsYes("true");
    }
  }

  /** `tasks.filter(IsCompleted)`, order kept. */
  function CompletedOnes(tasks: seq<Json>): (r: seq<Json>)
    ensures |r| <= |tasks|
    ensures forall i :: 0 <= i < |r| ==> IsCompleted(r[i])
    ensures multiset(r) <= multiset(tasks)
    decreases |tasks|
  {
    if |tasks| == 0 then []
    else
      var init := tasks[..|tasks| - 1];
      var last := tasks[|tasks| - 1];
      assert tasks == init + [last];
      CompletedOnes(init) + (if IsCompleted(last) then [last] else [])
  }

  /** The positions of the completed tasks. */
  function CompletedPositions(tasks: seq<Json>): set<nat> {
    set i: nat | i < |tasks| && IsCompleted(tasks[i])
  }

  /** Appending a task adds its position exactly when it is completed. */
  lemma PositionsOfSnoc(tasks: seq<Json>)
    requires |tasks| > 0
    ensures CompletedPositions(tasks) ==
      CompletedPositions(tasks[..|tasks| - 1]) + (if IsCompleted(tasks[|tasks| - 1]) then {|tasks| - 1} else {})
  {
    var n := |tasks| - 1;
    var init := tasks[..n];
    forall i: nat | i < n
      ensures init[i] == tasks[i]
    {
    }
  }

  /** The filtered length counts the completed positions, one per task. */
  lemma {:induction false} CountMatchesPositions(tasks: seq<Json>)
    ensures |CompletedOnes(tasks)| == |CompletedPositions(tasks)|
    decreases |tasks|
  {
    if |tasks| > 0 {
      var n := |tasks| - 1;
      var init := tasks[..n];
      CountMatchesPositions(init);
      PositionsOfSnoc(tasks);
      var before := CompletedPositions(init);
      assert n !in before;
      assert |CompletedOnes(tasks)| == |CompletedOnes(init)| + (if IsCompleted(tasks[n]) then 1 else 0);
    }
  }

  /** `Math.round(100 * c / t)` for `t > 0`, computed exactly, and 0 for `t == 0`. */
  function RoundedPercent(c: nat, t: nat): (p: nat)
    requires c <= t
    ensures t == 0 ==> p == 0
    // round half up: p is the floor of 100c/t + 1/2, i.e. p <= 100c/t + 1/2 < p + 1
    ensures t > 0 ==> 2 * t * p <= 200 * c + t < 2 * t * (p + 1)
    ensures p <= 100
    ensures t > 0 && c == t ==> p == 100
    ensures c == 0 ==> p == 0
  {
    if t == 0 then 0
    else
      var d, a := 2 * t, 200 * c + t;
      var p := a / d;
      DivBounds(a, d);
      BelowNextMultiple(d, p, 100, t);
      if c == 0 then BelowNextMultiple(d, p, 0, t); p
      else if c == t then AboveMultiple(d, p, 100); p
      else p
  }

  /** The quotient of `a` by `d` lies between the neighbouring multiples of `d`. */
  lemma DivBounds(a: nat, d: nat)
    requires d > 0
    ensures d * (a / d) <= a < d * (a / d + 1)
  {
    assert a == d * (a / d) + a % d;
    assert d * (a / d + 1) == d * (a / d) + d;
  }

  /** `k * p <= k * q + r` with `r < k` gives `p <= q`. */
  lemma BelowNextMultiple(k: nat, p: nat, q: nat, r: nat)
    requires r < k
    requires k * p <= k * q + r
    ensures p <= q
  {
    if p > q {
      MulMonotone(k, q + 1, p);
    }
  }

  /** `k * q < k * (p + 1)` gives `q <= p`. */
  lemma AboveMultiple(k: nat, p: nat, q: nat)
    requires k > 0
    requires k * q < k * (p + 1)
    ensures q <= p
  {
    if q > p {
      MulMonotone(k, p + 1, q);
    }
  }

  /** Multiplying by a natural number keeps the order. */
  lemma MulMonotone(k: nat, x: nat, y: nat)
    requires x <= y
    ensures k * x <= k * y
  {
    assert k * y == k * x + k * (y - x);
  }

  /** The figures on the four statistic cards. */
  datatype Stats = Stats(totalCount: nat, completedTasks: nat, pendingCount: int, completionPercentage: nat)

  function ComputeStats(tasks: seq<Json>): (st: Stats)
    ensures st.totalCount == |tasks|
    ensures st.completedTasks == |CompletedPositions(tasks)|
    ensures st.completedTasks <= st.totalCount
    ensures st.completionPercentage == RoundedPercent(st.completedTasks, st.totalCount)
    ensures st.pendingCount == st.totalCount - st.completedTasks && st.pendingCount >= 0
    ensures st.completionPercentage <= 100
    ensures st.totalCount == 0 ==> st.completionPercentage == 0
    ensures st.totalCount > 0 && st.completedTasks == st.totalCount ==> st.completionPercentage == 100
    ensures st.completedTasks == 0 ==> st.completionPercentage == 0
  {
    var completed := |CompletedOnes(tasks)|;
    CountMatchesPositions(tasks);
    Stats(|tasks|, completed, |tasks| - completed, RoundedPercent(completed, |tasks|))
  }

  /** Worked values: 1 of 8 rounds 12.5 up to 13; 2 of 3 gives 67; 1 of 3 gives 33. */
  lemma PercentExamples()
    ensures RoundedPercent(1, 8) == 13
    ensures RoundedPercent(2, 3) == 67
    ensures RoundedPercent(1, 3) == 33
  {
  }

  /** The reply `getTasts` sends: `{success: true, tasks: [...]}`. */
  function TaskListReply(items: seq<Json>): Json {
    Obj(map["success" := Bool(true), "tasks" := Arr(items)])
  }

  /** The component state `fetchTasks` writes. */
  datatype View = View(tasks: seq<Json>, loading: bool, error: Option<string>)

  /** How the `GET` request ended: a reply body, an `Error` (axios errors carry
      the HTTP status when there was a response), or a thrown non-`Error`. */
  datatype Reply = Data(data: Json) | RequestFailed(message: string, status: Option<int>) | NonErrorThrown

  /** The new state, and whether `onlogout()` was called. */
  datatype Fetched = Fetched(view: View, loggedOut: bool)

  /** `fetchTasks` with the stored token (`localStorage.getItem('token')`) and
      the outcome of the request. */
  function FetchTasks(v: View, token: Option<string>, reply: Reply): (f: Fetched)
    // `finally` clears the spinner on every path
    ensures !f.view.loading
    // no token: an error, and the list stays as it was
    ensures token.None? || token == Some("") ==>
              f == Fetched(View(v.tasks, false, Some(NoToken)), false)
    // the error is cleared exactly when a reply arrived
    ensures f.view.error.None? <==> token.Some? && token.value != "" && reply.Data?
    ensures f.view.error.None? ==> f.view.tasks == ExtractTasks(reply.data)
    ensures f.view.error.Some? ==> f.view.tasks == v.tasks
    // only a 401 from the server logs the user out
    ensures f.loggedOut <==> token.Some? && token.value != "" && reply.RequestFailed? && reply.status == Some(401)
    // a failed request shows the error's own message; anything else thrown a fixed one
    ensures token.Some? && token.value != "" && reply.RequestFailed? ==> f.view.error == Some(reply.message)
    ensures token.Some? && token.value != "" && reply.NonErrorThrown? ==> f.view.error == Some(CouldNotLoad)
  {
    match token
    case None => Fetched(View(v.tasks, false, Some(NoToken)), false)
    case Some(t) =>
      if t == "" then Fetched(View(v.tasks, false, Some(NoToken)), false)
      else match reply
        case Data(d) => Fetched(View(ExtractTasks(d), false, None), false)
        case RequestFailed(m, st) => Fetched(View(v.tasks, false, Some(m)), st == Some(401))
        case NonErrorThrown => Fetched(View(v.tasks, false, Some(CouldNotLoad)), false)
  }

  /** The dashboard and the server agree on the list's shape: the list in a
      `getTasts` reply is extracted unchanged, and with a stored token the
      fetch shows exactly that list with no error and no logout. */
  lemma FetchServerList(v: View, token: string, items: seq<Json>)
    requires token != ""
    ensures ExtractTasks(TaskListReply(items)) == items
    ensures FetchTasks(v, Some(token), Data(TaskListReply(items))) == Fetched(View(items, false, None), false)
  {
  }
}

=== FILE: models.dfy ===
/** The stored documents the controllers read and write, and the lookups they
    issue against the store. The user collection is a sequence in insertion
    order, so `findOne` is "the first match"; the task collection is a map
    from task id to document. */
module Models {
  import opened Js

  type UserId = string
  type TaskId = string

  /** A user document; `password` holds the bcrypt hash. */
  datatype User = User(id: UserId, name: Json, email: string, password: string)

  /** The three fields a client is ever sent about a user. */
  datatype PublicUser = PublicUser(id: UserId, name: Json, email: string)

  function PublicView(u: User): PublicUser {
    PublicUser(u.id, u.name, u.email)
  }

  /** A task document: the fields it was saved with, `owner` among them. */
  datatype Task = Task(fields: Object)

  function Owner(t: Task): Json {
    Prop(t.fields, "owner")
  }

  /** The value `req.user?.id` puts into a query filter: `undefined` when the
      auth gate attached no user. */
  function OwnerKey(requester: Option<UserId>): Json {
    match requester
    case Some(id) => Str(id)
    case None => Undefined
  }

  /** Whether a stored value satisfies the key `{k: query}` of a query filter.
      Mongoose drops a key whose value is `undefined` from the filter, so such
      a key matches every document. */
  predicate FilterMatches(stored: Json, query: Json) {
    query == Undefined || stored == query
  }

  /** The `{owner: req.user?.id}` part of a task filter: with no user it is
      dropped and every task matches. */
  predicate OwnedBy(t: Task, requester: Option<UserId>) {
    FilterMatches(Owner(t), OwnerKey(requester))
  }

  /** The result of `Task.find({owner: req.user?.id})`, as a set of documents. */
  function OwnedTasks(tasks: map<TaskId, Task>, requester: Option<UserId>): map<TaskId, Task> {
    map k | k in tasks && OwnedBy(tasks[k], requester) :: tasks[k]
  }

  /** Position of the first user with the given id. */
  function IndexOfId(users: seq<User>, id: UserId): (r: Option<nat>)
    ensures r.Some? ==> r.value < |users| && users[r.value].id == id
    ensures r.Some? ==> forall j :: 0 <= j < r.value ==> users[j].id != id
    ensures r.None? ==> forall j :: 0 <= j < |users| ==> users[j].id != id
    decreases |users|
  {
    if |users| == 0 then None
    else if users[0].id == id then Some(0)
    else match IndexOfId(users[1..], id)
      case None => None
      case Some(i) => Some(i + 1)
  }

  /** `User.findById(id)`: the user with that id, or null; an undefined id finds nothing. */
  function FindUserById(users: seq<User>, id: Option<UserId>): (r: Option<User>)
    ensures r.Some? <==> id.Some? && exists j :: 0 <= j < |users| && users[j].id == id.value
    ensures r.Some? ==> r.value in users && r.value.id == id.value
  {
    match id
    case None => None
    case Some(k) =>
      match IndexOfId(users, k)
      case None => None
      case Some(i) => Some(users[i])
  }

  /** `User.findOne({email})`: the first user whose email satisfies the
      filter. Only a string can equal a stored email, and an undefined email
      is dropped, so it finds the first user. */
  function FindUserByEmail(users: seq<User>, email: Json): (r: Option<User>)
    ensures r.Some? <==> exists j :: 0 <= j < |users| && FilterMatches(Str(users[j].email), email)
    ensures r.Some? ==> r.value in users && FilterMatches(Str(r.value.email), email)
    ensures email == Undefined ==> r == if |users| == 0 then None else Some(users[0])
    decreases |users|
  {
    if |users| == 0 then None
    else if FilterMatches(Str(users[0].email), email) then Some(users[0])
    else
      var r := FindUserByEmail(users[1..], email);
      assert forall j :: 1 <= j < |users| ==> users[j] == users[1..][j - 1];
      r
  }

  /** `User.findOne({email, _id: {$ne: id}})`: a user other than `id` whose
      email satisfies the filter; an undefined email is dropped, and with an
      undefined id every user qualifies. */
  function FindOtherByEmail(users: seq<User>, email: Json, id: Option<UserId>): (r: Option<User>)
    ensures r.Some? <==> exists j :: 0 <= j < |users| && FilterMatches(Str(users[j].email), email) && Some(users[j].id) != id
    ensures r.Some? ==> r.value in users && FilterMatches(Str(r.value.email), email) && Some(r.value.id) != id
    decreases |users|
  {
    if |users| == 0 then None
    else if FilterMatches(Str(users[0].email), email) && Some(users[0].id) != id then Some(users[0])
    else
      var r := FindOtherByEmail(users[1..], email, id);
      assert forall j :: 1 <= j < |users| ==> users[j] == users[1..][j - 1];
      r
  }
}

=== FILE: task_controller.dfy ===
/** The task handlers. Each runs after the auth gate and scopes its query to
    `owner == req.user?.id`; the store is a map from task id to document. */
module TaskController {
  import opened Js
  import opened Models
  import opened Http
  import opened Tokens
  import opened Auth

  const NotFoundOrNotYours := "Task not found or not yours."
  const TaskDeleted := "Task deleted"

  type Tasks = map<TaskId, Task>

  /** The body fields `createTask` copies into the new document. */
  const CopiedKeys: set<string> := {"title", "description", "priority", "dueDate"}

  /** The document `new Task({title, description, priority, dueDate, completed, owner})`
      builds: the four copied fields that are defined, `completed` forced to a
      boolean that is true only for the boolean `true`, and `owner` from the
      requester (left out when the requester has no id). */
  function NewTaskFields(body: Object, requester: Option<UserId>): (f: Object)
    ensures Prop(f, "completed") == Bool(true) <==> Prop(body, "completed") == Bool(true)
    ensures "completed" in f && f["completed"].Bool?
    ensures Owner(Task(f)) == OwnerKey(requester)
    ensures forall k :: k in CopiedKeys ==> Prop(f, k) == Prop(body, k)
    ensures forall k :: k in f ==> k in CopiedKeys || k == "completed" || k == "owner"
  {
    var copied := map k | k in body && k in CopiedKeys && body[k] != Undefined :: body[k];
    var stamped := copied["completed" := Bool(Prop(body, "completed") == Bool(true))];
    match requester
    case Some(id) => stamped["owner" := Str(id)]
    case None => stamped
  }

  /** `createTask`: saves a new task under the fresh id the database assigns. */
  function CreateTask(tasks: Tasks, requester: Option<UserId>, body: Object, s: Services, env: Env): (h: Handled<Tasks>)
    requires env.freshId !in tasks
    ensures h.settled == Completed && |h.writes| == 1
    ensures h.writes[0].status == 201 || h.writes[0].status == 400
    // validation runs first, then the save
    ensures s.validateTask(NewTaskFields(body, requester)).Some? ==>
              h == Handled([Response(400, Failure(s.validateTask(NewTaskFields(body, requester)).value))], tasks, Completed)
    ensures s.validateTask(NewTaskFields(body, requester)).None? && env.fault.Some? ==>
              h == Handled([Response(400, Failure(env.fault.value))], tasks, Completed)
    ensures s.validateTask(NewTaskFields(body, requester)).None? && env.fault.None? ==>
              h.writes[0].status == 201
    // a failed save changes nothing
    ensures h.writes[0].status == 400 ==> h.store == tasks && !Succeeds(h.writes[0].body)
    // a successful save adds exactly the new task, owned by the requester, and echoes it
    ensures h.writes[0].status == 201 ==>
              && h.writes[0].body.TaskSaved?
              && h.writes[0].body.id == env.freshId
              && h.store == tasks[env.freshId := h.writes[0].body.task]
              && OwnedBy(h.store[env.freshId], requester)
              && h.store[env.freshId].fields == NewTaskFields(body, requester)
  {
    var doc := Task(NewTaskFields(body, requester));
    match s.validateTask(doc.fields)
    case Some(msg) => Handled([Response(400, Failure(msg))], tasks, Completed)
    case None =>
      if env.fault.Some? then Handled([Response(400, Failure(env.fault.value))], tasks, Completed)
      else Handled([Response(201, TaskSaved(env.freshId, doc))], tasks[env.freshId := doc], Completed)
  }

  /** `getTasts`: the requester's tasks (the `createAt` sort is not modelled). */
  function GetTasks(tasks: Tasks, requester: Option<UserId>, env: Env): (h: Handled<Tasks>)
    ensures h.store == tasks && h.settled == Completed && |h.writes| == 1
    ensures env.fault.Some? ==> h.writes[0] == Response(400, Failure(env.fault.value))
    ensures env.fault.None? ==> h.writes[0].status == 200 && h.writes[0].body.TaskList?
    // the list holds every task of the requester and no task of anyone else
    ensures h.writes[0].body.TaskList? ==>
              && (forall k :: k in h.writes[0].body.tasks <==> k in tasks && OwnedBy(tasks[k], requester))
              && (forall k :: k in h.writes[0].body.tasks ==> h.writes[0].body.tasks[k] == tasks[k])
  {
    if env.fault.Some? then Handled([Response(400, Failure(env.fault.value))], tasks, Completed)
    else Handled([Response(200, TaskList(OwnedTasks(tasks, requester)))], tasks, Completed)
  }

  /** The update document `updateTask` builds from the body: a defined
      `completed` becomes true exactly for `true` and `"true"`; every other
      field passes through. */
  function NormalizeCompleted(body: Object): (data: Object)
    ensures data.Keys == body.Keys
    ensures forall k :: k in body && k != "completed" ==> data[k] == body[k]
    ensures Prop(body, "completed") == Undefined ==> Prop(data, "completed") == Undefined
    ensures Prop(body, "completed") != Undefined ==>
              && Prop(data, "completed").Bool?
              && (Prop(data, "completed") == Bool(true) <==>
                    Prop(body, "completed") in {Bool(true), Str("true")})
  {
    var c := Prop(body, "completed");
    if c != Undefined then body["completed" := Bool(c == Bool(true) || c == Str("true"))]
    else body
  }

  /** Normalizing an already normalized body changes nothing. */
  lemma NormalizeIdempotent(body: Object)
    ensures NormalizeCompleted(NormalizeCompleted(body)) == NormalizeCompleted(body)
  {
  }

  /** The filter `{_id: id, owner: req.user?.id}`. */
  predicate Matches(tasks: Tasks, id: TaskId, requester: Option<UserId>) {
    id in tasks && OwnedBy(tasks[id], requester)
  }

  /** `updateTask`: applies the normalized body to the matching task. Mongoose
      casts and validates the update itself before it sends the query, so an
      invalid update fails whether or not a task matches. */
  function UpdateTask(tasks: Tasks, id: TaskId, requester: Option<UserId>, body: Object, s: Services, env: Env): (h: Handled<Tasks>)
    ensures h.settled == Completed
    // nothing but the matching task can change, and no task appears or disappears
    ensures h.store.Keys == tasks.Keys
    ensures forall k :: k in tasks && k != id ==> h.store[k] == tasks[k]
    ensures h.store != tasks ==> Matches(tasks, id, requester)
    // the matching task receives the body's fields, completed normalized
    ensures h.store != tasks ==> h.store[id] == Task(tasks[id].fields + NormalizeCompleted(body))
    // an invalid update: the catch block's single 500, before any lookup
    ensures s.validateUpdate(NormalizeCompleted(body)).Some? ==>
              h == Handled([Response(500, Failure(s.validateUpdate(NormalizeCompleted(body)).value))], tasks, Completed)
    // a failing query: one 500 and nothing changes
    ensures s.validateUpdate(NormalizeCompleted(body)).None? && env.fault.Some? ==>
              h == Handled([Response(500, Failure(env.fault.value))], tasks, Completed)
    // a valid update of a matching task is stored and echoed
    ensures s.validateUpdate(NormalizeCompleted(body)).None? && env.fault.None? && Matches(tasks, id, requester) ==>
              && h.store == tasks[id := Task(tasks[id].fields + NormalizeCompleted(body))]
              && h.writes == [Response(200, TaskUpdated(Some(h.store[id])))]
    // no match: a 404 and then, falling through, the success body, still with status 404
    ensures s.validateUpdate(NormalizeCompleted(body)).None? && env.fault.None? && !Matches(tasks, id, requester) ==>
              h == Handled([Response(404, Failure(NotFoundOrNotYours)), Response(404, TaskUpdated(None))], tasks, Completed)
  {
    var data := NormalizeCompleted(body);
    match s.validateUpdate(data)
    case Some(msg) => Handled([Response(500, Failure(msg))], tasks, Completed)
    case None =>
      if env.fault.Some? then Handled([Response(500, Failure(env.fault.value))], tasks, Completed)
      else if Matches(tasks, id, requester) then
        var merged := Task(tasks[id].fields + data);
        Handled([Response(200, TaskUpdated(Some(merged)))], tasks[id := merged], Completed)
      else
        Handled([Response(404, Failure(NotFoundOrNotYours)), Response(404, TaskUpdated(None))], tasks, Completed)
  }

  /** `deleteTask`: removes the matching task, if any. */
  function DeleteTask(tasks: Tasks, id: TaskId, requester: Option<UserId>, env: Env): (h: Handled<Tasks>)
    ensures h.settled == Completed
    // at most the matching task disappears; every other task is kept as it was
    ensures h.store.Keys == tasks.Keys || h.store.Keys == tasks.Keys - {id}
    ensures forall k :: k in h.store ==> k in tasks && h.store[k] == tasks[k]
    ensures h.store != tasks <==> Matches(tasks, id, requester) && env.fault.None?
    ensures Matches(tasks, id, requester) && env.fault.None? ==>
              id !in h.store && h.writes == [Response(200, Notice(TaskDeleted))]
    ensures env.fault.Some? ==> h.writes == [Response(500, Failure(env.fault.value))]
    // no match: a 404 and then, falling through, "Task deleted" as well, still with status 404
    ensures !Matches(tasks, id, requester) && env.fault.None? ==>
              h.writes == [Response(404, Failure(NotFoundOrNotYours)), Response(404, Notice(TaskDeleted))]
  {
    if env.fault.Some? then Handled([Response(500, Failure(env.fault.value))], tasks, Completed)
    else if Matches(tasks, id, requester) then
      Handled([Response(200, Notice(TaskDeleted))], tasks - {id}, Completed)
    else
      Handled([Response(404, Failure(NotFoundOrNotYours)), Response(404, Notice(TaskDeleted))], tasks, Completed)
  }

  /** `createTask` never reads the body's `owner`: two bodies that differ only
      there produce the same outcome. */
  lemma CreateIgnoresBodyOwner(tasks: Tasks, requester: Option<UserId>, b1: Object, b2: Object, s: Services, env: Env)
    requires env.freshId !in tasks
    requires b1 - {"owner"} == b2 - {"owner"}
    ensures CreateTask(tasks, requester, b1, s, env) == CreateTask(tasks, requester, b2, s, env)
  {
    forall k | k in CopiedKeys || k == "completed"
      ensures Prop(b1, k) == Prop(b2, k)
    {
      assert k != "owner";
      assert k in b1 <==> k in b1 - {"owner"};
      assert k in b2 <==> k in b2 - {"owner"};
      if k in b1 {
        assert b1[k] == (b1 - {"owner"})[k];
      }
      if k in b2 {
        assert b2[k] == (b2 - {"owner"})[k];
      }
    }
    var f1 := NewTaskFields(b1, requester);
    var f2 := NewTaskFields(b2, requester);
    assert f1.Keys == f2.Keys;
    assert f1 == f2;
  }

  /** A created task shows up in its owner's list and in nobody else's. */
  lemma CreateThenList(tasks: Tasks, owner: UserId, other: UserId, body: Object, s: Services, env: Env)
    requires env.freshId !in tasks
    requires other != owner
    ensures var h := CreateTask(tasks, Some(owner), body, s, env);
            && (h.writes[0].status == 201 ==>
                  OwnedTasks(h.store, Some(owner)) == OwnedTasks(tasks, Some(owner))[env.freshId := h.store[env.freshId]])
            && OwnedTasks(h.store, Some(other)) == OwnedTasks(tasks, Some(other))
  {
    var h := CreateTask(tasks, Some(owner), body, s, env);
    if h.writes[0].status == 201 {
      assert Owner(h.store[env.freshId]) == Str(owner);
      assert !OwnedBy(h.store[env.freshId], Some(other));
    }
  }

  /** Two different users' lists never share a task. */
  lemma ListsAreDisjoint(tasks: Tasks, a: UserId, b: UserId)
    requires a != b
    ensures OwnedTasks(tasks, Some(a)).Keys !! OwnedTasks(tasks, Some(b)).Keys
  {
  }

  /** Ownership isolation: when an authenticated `intruder` updates or
      deletes, with a body that does not name an `owner`, the task list of any
      other user is unchanged. */
  lemma OthersCannotTouch(tasks: Tasks, id: TaskId, victim: UserId, intruder: UserId, body: Object, s: Services, env: Env)
    requires intruder != victim
    requires "owner" !in body
    ensures OwnedTasks(UpdateTask(tasks, id, Some(intruder), body, s, env).store, Some(victim)) == OwnedTasks(tasks, Some(victim))
    ensures OwnedTasks(DeleteTask(tasks, id, Some(intruder), env).store, Some(victim)) == OwnedTasks(tasks, Some(victim))
  {
    var u := UpdateTask(tasks, id, Some(intruder), body, s, env).store;
    if u != tasks {
      var data := NormalizeCompleted(body);
      assert "owner" !in data;
      assert Owner(u[id]) == Owner(tasks[id]);
      assert !OwnedBy(tasks[id], Some(victim));
    }
    var d := DeleteTask(tasks, id, Some(intruder), env).store;
    if d != tasks {
      assert !OwnedBy(tasks[id], Some(victim));
    }
  }

  /** Without a user the owner key is dropped from the filter: the request
      lists every task and deletes any task by id, whoever owns it. */
  lemma NoUserReachesEveryTask(tasks: Tasks, id: TaskId, env: Env)
    requires env.fault.None?
    ensures GetTasks(tasks, None, env).writes == [Response(200, TaskList(tasks))]
    ensures id in tasks ==> DeleteTask(tasks, id, None, env).store == tasks - {id}
  {
    var all := OwnedTasks(tasks, None);
    assert forall k :: k in tasks ==> OwnedBy(tasks[k], None);
    assert all.Keys == tasks.Keys;
    assert forall k :: k in all ==> all[k] == tasks[k];
    assert all == tasks;
  }

  /** A token naming a user that no longer exists passes the gate with no
      user attached, and the delete that follows removes another account's
      task. */
  lemma StaleTokenDeletesAnyTask(header: Option<string>, users: seq<User>, s: Services, env: Env,
                                 tasks: Tasks, id: TaskId, victim: UserId)
    requires AuthMiddleware(header, users, s, env).attached == NullUser
    requires id in tasks && OwnedBy(tasks[id], Some(victim))
    ensures var g := AuthMiddleware(header, users, s, env);
            && g.next
            && id !in OwnedTasks(DeleteTask(tasks, id, Requester(g.attached), env).store, Some(victim))
  {
  }

  /** Behind the corrected gate, a delete never touches another user's tasks. */
  lemma CorrectedGateKeepsOthersTasks(header: Option<string>, users: seq<User>, s: Services, env: Env,
                                      tasks: Tasks, id: TaskId, victim: UserId)
    requires AuthMiddlewareCorrected(header, users, s, env).next
    requires Requester(AuthMiddlewareCorrected(header, users, s, env).attached) != Some(victim)
    ensures var g := AuthMiddlewareCorrected(header, users, s, env);
            OwnedTasks(DeleteTask(tasks, id, Requester(g.attached), env).store, Some(victim)) == OwnedTasks(tasks, Some(victim))
  {
    var g := AuthMiddlewareCorrected(header, users, s, env);
    var d := DeleteTask(tasks, id, Requester(g.attached), env).store;
    if d != tasks {
      assert !OwnedBy(tasks[id], Some(victim));
    }
  }

  /** The update passes `owner` through like any other field: a user can hand
      their own task over to another account. */
  lemma UpdateCanReassignOwner(tasks: Tasks, id: TaskId, from: UserId, to: UserId, s: Services, env: Env)
    requires Matches(tasks, id, Some(from))
    requires env.fault.None?
    requires s.validateUpdate(NormalizeCompleted(map["owner" := Str(to)])).None?
    ensures var h := UpdateTask(tasks, id, Some(from), map["owner" := Str(to)], s, env);
            && id in OwnedTasks(h.store, Some(to))
  {
    var body: Object := map["owner" := Str(to)];
    var h := UpdateTask(tasks, id, Some(from), body, s, env);
    var merged := tasks[id].fields + NormalizeCompleted(body);
    assert Prop(merged, "owner") == Str(to);
    if h.store == tasks {
      assert Owner(tasks[id]) == Str(from);
      assert h.store[id] == Task(merged);
    }
    assert OwnedBy(h.store[id], Some(to));
  }

  /** `updateTask` as evidently intended: `return` after the 404. */
  function UpdateTaskCorrected(tasks: Tasks, id: TaskId, requester: Option<UserId>, body: Object, s: Services, env: Env): (h: Handled<Tasks>)
    ensures AnswersOnce(h) && h.settled == Completed
    ensures h.store == UpdateTask(tasks, id, requester, body, s, env).store
    ensures !Matches(tasks, id, requester) ==> h.writes[0].status != 200
    ensures h.writes[0].status == 200 <==> h.writes[0].body.TaskUpdated? && h.writes[0].body.updated.Some?
    ensures s.validateUpdate(NormalizeCompleted(body)).Some? ==>
              h == Handled([Response(500, Failure(s.validateUpdate(NormalizeCompleted(body)).value))], tasks, Completed)
    ensures s.validateUpdate(NormalizeCompleted(body)).None? && env.fault.Some? ==>
              h == Handled([Response(500, Failure(env.fault.value))], tasks, Completed)
    // a valid update of a matching task: stored, and a single 200 echoes it
    ensures s.validateUpdate(NormalizeCompleted(body)).None? && env.fault.None? && Matches(tasks, id, requester) ==>
              var updated := Task(tasks[id].fields + NormalizeCompleted(body));
              h == Handled([Response(200, TaskUpdated(Some(updated)))], tasks[id := updated], Completed)
    // no match: a single 404 and nothing changes
    ensures s.validateUpdate(NormalizeCompleted(body)).None? && env.fault.None? && !Matches(tasks, id, requester) ==>
              h == Handled([Response(404, Failure(NotFoundOrNotYours))], tasks, Completed)
  {
    var h := UpdateTask(tasks, id, requester, body, s, env);
    if |h.writes| == 2 then Handled([h.writes[0]], h.store, h.settled) else h
  }

  /** `deleteTask` as evidently intended: `return` after the 404. */
  function DeleteTaskCorrected(tasks: Tasks, id: TaskId, requester: Option<UserId>, env: Env): (h: Handled<Tasks>)
    ensures AnswersOnce(h) && h.settled == Completed
    ensures h.store == DeleteTask(tasks, id, requester, env).store
    ensures h.writes[0].status == 200 <==> h.store != tasks
    ensures env.fault.Some? ==> h == Handled([Response(500, Failure(env.fault.value))], tasks, Completed)
    // a matching task: removed, and a single 200
    ensures env.fault.None? && Matches(tasks, id, requester) ==>
              h == Handled([Response(200, Notice(TaskDeleted))], tasks - {id}, Completed)
    // no match: a single 404 and nothing removed
    ensures env.fault.None? && !Matches(tasks, id, requester) ==>
              h == Handled([Response(404, Failure(NotFoundOrNotYours))], tasks, Completed)
  {
    var h := DeleteTask(tasks, id, requester, env);
    if |h.writes| == 2 then Handled([h.writes[0]], h.store, h.settled) else h
  }
}

=== FILE: tokens.dfy ===
/** The libraries the backend calls, as uninterpreted parameters, and the token
    issuer built on top of them (`JWT_SECRET`, `TOKEN_SPIRES`, `createToken`). */
module Tokens {
  import opened Js
  import opened Models

  /** The fallback used when `JWT_SECRET` is unset or empty. */
  const DefaultSecret := "your_jwt_secret_here"

  /** The `expiresIn` option passed to the signer ... */
  const TokenExpiresIn := "24h"

  /** ... and the number of seconds it stands for. */
  const TokenLifetime := 24 * 60 * 60

  /** The decoded payload of a token: its `id` claim, when it has one. */
  datatype Claims = Claims(id: Option<UserId>)

  /** One `jwt.sign(payload, secret, {expiresIn})` call made at second `issuedAt`. */
  datatype SignRequest = SignRequest(payload: Claims, secret: string, expiresIn: string, issuedAt: int)

  /** The library calls and configuration the handlers depend on:
      - `sign`, `verify`: jsonwebtoken; `verify(token, secret, nowSeconds)` is
        `None` when it throws (bad signature, expired, malformed);
      - `hash(password, salt)`, `compare(password, hash)`: bcryptjs;
      - `isEmail`: validator's e-mail test on strings;
      - `validateTask`: the task schema's validation of a whole document,
        `Some(message)` on failure;
      - `validateUpdate`: Mongoose's casting and update validators
        (`runValidators`), run on the paths of an update before the query is
        sent, `Some(message)` on failure;
      - `secretVar`: the `JWT_SECRET` environment variable. */
  datatype Services = Services(
    sign: SignRequest -> string,
    verify: (string, string, int) -> Option<Claims>,
    hash: (string, nat) -> string,
    compare: (string, string) -> bool,
    isEmail: string -> bool,
    validateTask: Object -> Option<string>,
    validateUpdate: Object -> Option<string>,
    secretVar: Option<string>)

  /** What differs from one request to the next: the clock in milliseconds,
      the salt bcrypt draws, the id the database assigns to a new document,
      and whether the handler's first database call throws (with its message). */
  datatype Env = Env(nowMs: nat, salt: nat, freshId: string, fault: Option<string>)

  /** jsonwebtoken's clock: whole seconds. */
  function Seconds(ms: nat): nat {
    ms / 1000
  }

  /** `process.env.JWT_SECRET || DefaultSecret`: an empty variable counts as unset,
      so the key is never empty. */
  function JwtSecret(secretVar: Option<string>): (key: string)
    ensures key != ""
    ensures key == DefaultSecret || secretVar == Some(key)
    ensures secretVar.Some? && secretVar.value != "" ==> key == secretVar.value
  {
    match secretVar
    case Some(v) => if v != "" then v else DefaultSecret
    case None => DefaultSecret
  }

  /** The signing call `createToken(userId)` makes at time `nowMs`: the
      payload is exactly `{id: userId}`, signed with the configured secret,
      expiring "24h" after the current second. */
  function TokenRequest(userId: UserId, s: Services, nowMs: nat): (r: SignRequest)
    ensures r.payload.id == Some(userId)
    ensures r.expiresIn == "24h"
    ensures r.issuedAt * 1000 <= nowMs < (r.issuedAt + 1) * 1000
    ensures r.secret == JwtSecret(s.secretVar)
  {
    SignRequest(Claims(Some(userId)), JwtSecret(s.secretVar), TokenExpiresIn, Seconds(nowMs))
  }

  /** What jsonwebtoken guarantees: a token verifies, with the same secret,
      to the payload it was signed with until its lifetime has passed. */
  ghost predicate SignVerifyAgree(s: Services) {
    forall r: SignRequest, now: int ::
      r.expiresIn == TokenExpiresIn && r.issuedAt <= now < r.issuedAt + TokenLifetime ==>
        s.verify(s.sign(r), r.secret, now) == Some(r.payload)
  }

  /** ... and refuses it once the lifetime is over. */
  ghost predicate ExpiryEnforced(s: Services) {
    forall r: SignRequest, now: int ::
      r.expiresIn == TokenExpiresIn && r.issuedAt + TokenLifetime <= now ==>
        s.verify(s.sign(r), r.secret, now).None?
  }

  /** `createToken(userId)`: when the library keeps its promise, the token
      verifies at once, under the configured secret, to `{id: userId}`. */
  function CreateToken(userId: UserId, s: Services, nowMs: nat): (token: string)
    ensures SignVerifyAgree(s) ==>
              s.verify(token, JwtSecret(s.secretVar), Seconds(nowMs)) == Some(Claims(Some(userId)))
  {
    var r := TokenRequest(userId, s, nowMs);
    assert SignVerifyAgree(s) ==> s.verify(s.sign(r), r.secret, r.issuedAt) == Some(r.payload);
    s.sign(r)
  }

  /** A token from `createToken` verifies to its user id for the next 24 hours
      and no longer afterwards. */
  lemma TokenLifetimeWindow(userId: UserId, s: Services, nowMs: nat, laterMs: nat)
    requires SignVerifyAgree(s) && ExpiryEnforced(s)
    requires nowMs <= laterMs
    ensures var claims := s.verify(CreateToken(userId, s, nowMs), JwtSecret(s.secretVar), Seconds(laterMs));
            && (Seconds(laterMs) < Seconds(nowMs) + TokenLifetime ==> claims == Some(Claims(Some(userId))))
            && (Seconds(laterMs) >= Seconds(nowMs) + TokenLifetime ==> claims.None?)
  {
    var r := TokenRequest(userId, s, nowMs);
    assert Seconds(nowMs) <= Seconds(laterMs);
    if Seconds(laterMs) < Seconds(nowMs) + TokenLifetime {
      assert s.verify(s.sign(r), r.secret, Seconds(laterMs)) == Some(r.payload);
    } else {
      assert s.verify(s.sign(r), r.secret, Seconds(laterMs)).None?;
    }
  }

  /** Two tokens for one user issued within the same second are the same
      string: issuing is deterministic at the granularity of the `iat` claim. */
  lemma SameSecondSameToken(userId: UserId, s: Services, t1: nat, t2: nat)
    requires Seconds(t1) == Seconds(t2)
    ensures CreateToken(userId, s, t1) == CreateToken(userId, s, t2)
  {
  }
}

=== FILE: user_controller.dfy ===
/** The user handlers: register, login, current user, profile update and
    password change, over a user collection kept in insertion order. */
module UserController {
  import opened Js
  import opened Models
  import opened Http
  import opened Tokens
  import opened Auth

  type Users = seq<User>

  const MinPasswordLength := 8

  const AllFieldsRequired := "All fields are required."
  const InvalidEmail := "Invalid Email."
  const PasswordTooShort := "Password must be atleast 8 characters."
  const UserExists := "User already exists."
  const ServerErrorLower := "Server error."
  const ServerErrorUpper := "Server Error."
  const CredentialsRequired := "Email and password required."
  const InvalidCredentials := "Invalid credentials."
  const UserNotFoundDot := "User not found."
  const NameEmailRequired := "Valid name and email required."
  const EmailInUse := "Email already in use by another account."
  const PasswordInvalid := "Password invalid or too short."
  const CurrentPasswordInvalid := "CurrentPassword is invalid."
  const PasswordChanged := "Password changed."

  /** No two stored users share an e-mail address. */
  predicate UniqueEmails(users: Users) {
    forall i, j :: 0 <= i < j < |users| ==> users[i].email != users[j].email
  }

  /** No two stored users share an id, as the database's `_id` key guarantees. */
  predicate UniqueIds(users: Users) {
    forall i, j :: 0 <= i < j < |users| ==> users[i].id != users[j].id
  }

  /** Every stored user has a non-empty e-mail, as registration demands. */
  predicate EmailsPresent(users: Users) {
    forall j :: 0 <= j < |users| ==> users[j].email != ""
  }

  /** With unique e-mails, looking up a stored user's e-mail finds that user. */
  lemma FindOwnEmail(users: Users, j: nat)
    requires UniqueEmails(users) && j < |users|
    ensures FindUserByEmail(users, Str(users[j].email)) == Some(users[j])
  {
  }

  /** The user `User.create` stores for a registration. */
  function NewUser(name: Json, email: string, password: string, s: Services, env: Env): User {
    User(env.freshId, name, email, s.hash(password, env.salt))
  }

  /** The body of a successful register or login: a fresh token for `u` and
      its three public fields. */
  function SessionFor(u: User, s: Services, env: Env): Body {
    Session(CreateToken(u.id, s, env.nowMs), PublicView(u))
  }

  /** The checks `registerUser` runs before touching the store, in order;
      `None` when all pass. `Some([])` is the unhandled rejection thrown by
      `validator.isEmail` on a non-string e-mail. */
  function RegisterRejection(body: Object, s: Services): (r: Option<seq<Response>>)
    // registration proceeds exactly for truthy fields, a valid string e-mail and a long enough password
    ensures var name, email, password := Prop(body, "name"), Prop(body, "email"), Prop(body, "password");
            r.None? <==> && Truthy(name) && Truthy(email) && Truthy(password)
                         && email.Str? && s.isEmail(email.s)
                         && !LengthBelow(password, MinPasswordLength)
    // every rejection that answers is a single 400
    ensures r.Some? ==> |r.value| <= 1 && forall i :: 0 <= i < |r.value| ==> r.value[i].status == 400
    // only a truthy non-string e-mail goes unanswered
    ensures r == Some([]) <==> Truthy(Prop(body, "name")) && Truthy(Prop(body, "email")) &&
                               Truthy(Prop(body, "password")) && !Prop(body, "email").Str?
  {
    var name := Prop(body, "name");
    var email := Prop(body, "email");
    var password := Prop(body, "password");
    if !Truthy(name) || !Truthy(email) || !Truthy(password) then
      Some([Response(400, MisspelledFailure(AllFieldsRequired))])
    else if !email.Str? then Some([])
    else if !s.isEmail(email.s) then Some([Response(400, Failure(InvalidEmail))])
    else if LengthBelow(password, MinPasswordLength) then Some([Response(400, Failure(PasswordTooShort))])
    else None
  }

  /** `registerUser`. */
  function RegisterUser(users: Users, body: Object, s: Services, env: Env): (h: Handled<Users>)
    // validation, in the source's order, with early returns
    ensures var name, email, password := Prop(body, "name"), Prop(body, "email"), Prop(body, "password");
            && (!Truthy(name) || !Truthy(email) || !Truthy(password) ==>
                  h == Handled([Response(400, MisspelledFailure(AllFieldsRequired))], users, Completed))
            && (Truthy(name) && Truthy(email) && Truthy(password) && !email.Str? ==>
                  h == Handled([], users, Unhandled))
            && (Truthy(name) && Truthy(password) && email.Str? && email.s != "" && !s.isEmail(email.s) ==>
                  h == Handled([Response(400, Failure(InvalidEmail))], users, Completed))
            && (Truthy(name) && Truthy(password) && email.Str? && email.s != "" && s.isEmail(email.s) &&
                LengthBelow(password, MinPasswordLength) ==>
                  h == Handled([Response(400, Failure(PasswordTooShort))], users, Completed))
    // the handler answers unless validator.isEmail throws on a non-string e-mail
    ensures h.settled == Unhandled <==> RegisterRejection(body, s) == Some([])
    // the store either stays as it is or gains the new user at the end
    ensures h.store == users || (|h.store| == |users| + 1 && h.store == users + [h.store[|users|]])
    ensures h.store != users ==>
              && RegisterRejection(body, s).None? && env.fault.None?
              && Prop(body, "password").Str?
              && |h.writes| >= 1
              && h.store[|users|] == NewUser(Prop(body, "name"), Prop(body, "email").s, Prop(body, "password").s, s, env)
              && h.writes[|h.writes| - 1] == Response(201, SessionFor(h.store[|users|], s, env))
    // a failing lookup: one 500, nothing stored
    ensures RegisterRejection(body, s).None? && env.fault.Some? ==>
              h == Handled([Response(500, Failure(ServerErrorLower))], users, Completed)
    // valid input and a string password: the hashed user is stored and a 201 session is the last write
    ensures RegisterRejection(body, s).None? && env.fault.None? && Prop(body, "password").Str? ==>
              && h.store == users + [NewUser(Prop(body, "name"), Prop(body, "email").s, Prop(body, "password").s, s, env)]
              && |h.writes| >= 1
              && h.writes[|h.writes| - 1].status == 201
    // a non-string password makes bcrypt throw: 500 last, nothing stored
    ensures RegisterRejection(body, s).None? && env.fault.None? && !Prop(body, "password").Str? ==>
              && h.store == users
              && |h.writes| >= 1
              && h.writes[|h.writes| - 1] == Response(500, Failure(ServerErrorLower))
    // a free e-mail: exactly one write
    ensures RegisterRejection(body, s).None? && env.fault.None? && FindUserByEmail(users, Prop(body, "email")).None? ==>
              |h.writes| == 1
    // the 201 is written exactly when the user was stored
    ensures (exists i :: 0 <= i < |h.writes| && h.writes[i].status == 201) <==> h.store != users
    // a taken e-mail: 409 is written, yet registration goes on to write again
    ensures RegisterRejection(body, s).None? && env.fault.None? &&
            FindUserByEmail(users, Prop(body, "email")).Some? ==>
              |h.writes| == 2 && h.writes[0] == Response(409, Failure(UserExists))
  {
    match RegisterRejection(body, s)
    case Some(writes) => Handled(writes, users, if writes == [] then Unhandled else Completed)
    case None =>
      if env.fault.Some? then Handled([Response(500, Failure(ServerErrorLower))], users, Completed)
      else
        var name, email, password := Prop(body, "name"), Prop(body, "email"), Prop(body, "password");
        var conflict := if FindUserByEmail(users, email).Some? then [Response(409, Failure(UserExists))] else [];
        if !password.Str? then
          // bcrypt.hash throws on a non-string password
          Handled(conflict + [Response(500, Failure(ServerErrorLower))], users, Completed)
        else
          var u := NewUser(name, email.s, password.s, s, env);
          Handled(conflict + [Response(201, SessionFor(u, s, env))], users + [u], Completed)
  }

  /** The password-length boundary: 7 characters are refused, 8 accepted. */
  lemma RegisterPasswordBoundary(users: Users, name: Json, email: string, s: Services, env: Env)
    requires Truthy(name) && email != "" && s.isEmail(email)
    ensures var seven := map["name" := name, "email" := Str(email), "password" := Str("abcdefg")];
            RegisterUser(users, seven, s, env).writes == [Response(400, Failure(PasswordTooShort))]
    ensures var eight := map["name" := name, "email" := Str(email), "password" := Str("abcdefgh")];
            forall i :: 0 <= i < |RegisterUser(users, eight, s, env).writes| ==>
              RegisterUser(users, eight, s, env).writes[i].status != 400
  {
  }

  /** Registering an e-mail that is taken stores a second account with it:
      the 409 does not stop the handler. */
  lemma RegisterDuplicateBreaksUniqueness(users: Users, body: Object, s: Services, env: Env)
    requires UniqueEmails(users)
    requires RegisterRejection(body, s).None? && env.fault.None? && Prop(body, "password").Str?
    requires FindUserByEmail(users, Prop(body, "email")).Some?
    ensures var h := RegisterUser(users, body, s, env);
            && h.writes[0] == Response(409, Failure(UserExists))
            && h.writes[1].status == 201
            && !UniqueEmails(h.store)
  {
    var h := RegisterUser(users, body, s, env);
    var taken := FindUserByEmail(users, Prop(body, "email")).value;
    var i :| 0 <= i < |users| && users[i] == taken;
    assert h.store[i].email == h.store[|users|].email;
  }

  /** `registerUser` as evidently intended: `return` after the 409. */
  function RegisterUserCorrected(users: Users, body: Object, s: Services, env: Env): (h: Handled<Users>)
    ensures AnswersOnce(h)
    ensures h.store == users || (|h.store| == |users| + 1 && h.store == users + [h.store[|users|]])
    // a stored account never reuses an e-mail that was already taken
    ensures h.store != users ==> FindUserByEmail(users, Str(h.store[|users|].email)).None?
    // rejected input and a failing lookup answer as the original does
    ensures RegisterRejection(body, s).Some? ==>
              h == Handled(RegisterRejection(body, s).value, users,
                           if RegisterRejection(body, s).value == [] then Unhandled else Completed)
    ensures RegisterRejection(body, s).None? && env.fault.Some? ==>
              h == Handled([Response(500, Failure(ServerErrorLower))], users, Completed)
    // a taken e-mail: a single 409 and nothing stored
    ensures RegisterRejection(body, s).None? && env.fault.None? &&
            FindUserByEmail(users, Prop(body, "email")).Some? ==>
              h == Handled([Response(409, Failure(UserExists))], users, Completed)
    // a free e-mail and a string password: the new account is stored and a single 201 carries its session
    ensures RegisterRejection(body, s).None? && env.fault.None? &&
            FindUserByEmail(users, Prop(body, "email")).None? && Prop(body, "password").Str? ==>
              var u := NewUser(Prop(body, "name"), Prop(body, "email").s, Prop(body, "password").s, s, env);
              h == Handled([Response(201, SessionFor(u, s, env))], users + [u], Completed)
    // a free e-mail and a non-string password: bcrypt throws, a single 500
    ensures RegisterRejection(body, s).None? && env.fault.None? &&
            FindUserByEmail(users, Prop(body, "email")).None? && !Prop(body, "password").Str? ==>
              h == Handled([Response(500, Failure(ServerErrorLower))], users, Completed)
  {
    if RegisterRejection(body, s).None? && env.fault.None? && FindUserByEmail(users, Prop(body, "email")).Some? then
      Handled([Response(409, Failure(UserExists))], users, Completed)
    else RegisterUser(users, body, s, env)
  }

  /** The corrected registration keeps e-mails unique. */
  lemma {:induction false} RegisterCorrectedKeepsEmailsUnique(users: Users, body: Object, s: Services, env: Env)
    requires UniqueEmails(users)
    ensures UniqueEmails(RegisterUserCorrected(users, body, s, env).store)
  {
    var h := RegisterUserCorrected(users, body, s, env);
    if h.store != users {
      var n := h.store[|users|];
      assert forall j :: 0 <= j < |users| ==> users[j].email != n.email;
      forall i, j | 0 <= i < j < |h.store| ensures h.store[i].email != h.store[j].email {
        if j < |users| {
          assert h.store[i] == users[i] && h.store[j] == users[j];
        } else {
          assert h.store[i] == users[i];
        }
      }
    }
  }

  /** `loginUser`. The store is read only. */
  function LoginUser(users: Users, body: Object, s: Services, env: Env): (h: Handled<Users>)
    ensures h.store == users && h.settled == Completed
    ensures !Truthy(Prop(body, "email")) || !Truthy(Prop(body, "password")) ==>
              h.writes == [Response(400, Failure(CredentialsRequired))]
    ensures Truthy(Prop(body, "email")) && Truthy(Prop(body, "password")) && env.fault.None? &&
            FindUserByEmail(users, Prop(body, "email")).None? ==>
              h.writes == [Response(401, Failure(InvalidCredentials))]
    // a token is only ever written for the stored account holding that e-mail
    ensures forall i :: 0 <= i < |h.writes| && h.writes[i].body.Session? ==>
              exists u :: u in users && Str(u.email) == Prop(body, "email") && h.writes[i].body == SessionFor(u, s, env)
    ensures Truthy(Prop(body, "email")) && Truthy(Prop(body, "password")) && env.fault.Some? ==>
              h.writes == [Response(500, Failure(ServerErrorLower))]
    // bcrypt.compare throws on a non-string password
    ensures Truthy(Prop(body, "email")) && Truthy(Prop(body, "password")) && !Prop(body, "password").Str? && env.fault.None? &&
            FindUserByEmail(users, Prop(body, "email")).Some? ==>
              h.writes == [Response(500, Failure(ServerErrorLower))]
    // the right password: a single 200 carrying a session for that account
    ensures Truthy(Prop(body, "email")) && Truthy(Prop(body, "password")) && Prop(body, "password").Str? && env.fault.None? &&
            FindUserByEmail(users, Prop(body, "email")).Some? &&
            s.compare(Prop(body, "password").s, FindUserByEmail(users, Prop(body, "email")).value.password) ==>
              h.writes == [Response(200, SessionFor(FindUserByEmail(users, Prop(body, "email")).value, s, env))]
    // a wrong password writes 401 and still goes on to write a token, with the status still 401
    ensures Truthy(Prop(body, "email")) && Truthy(Prop(body, "password")) && Prop(body, "password").Str? && env.fault.None? &&
            FindUserByEmail(users, Prop(body, "email")).Some? &&
            !s.compare(Prop(body, "password").s, FindUserByEmail(users, Prop(body, "email")).value.password) ==>
              h.writes == [Response(401, Failure(InvalidCredentials)),
                           Response(401, SessionFor(FindUserByEmail(users, Prop(body, "email")).value, s, env))]
  {
    var email, password := Prop(body, "email"), Prop(body, "password");
    if !Truthy(email) || !Truthy(password) then
      Handled([Response(400, Failure(CredentialsRequired))], users, Completed)
    else if env.fault.Some? then
      Handled([Response(500, Failure(ServerErrorLower))], users, Completed)
    else match FindUserByEmail(users, email)
      case None => Handled([Response(401, Failure(InvalidCredentials))], users, Completed)
      case Some(u) =>
        if !password.Str? then
          // bcrypt.compare rejects a non-string password
          Handled([Response(500, Failure(ServerErrorLower))], users, Completed)
        else
          if s.compare(password.s, u.password) then
            Handled([Response(200, SessionFor(u, s, env))], users, Completed)
          else
            // no `return` after the 401: `res.json` keeps the status 401
            Handled([Response(401, Failure(InvalidCredentials)), Response(401, SessionFor(u, s, env))], users, Completed)
  }

  /** `loginUser` as evidently intended: `return` after the password mismatch. */
  function LoginUserCorrected(users: Users, body: Object, s: Services, env: Env): (h: Handled<Users>)
    ensures AnswersOnce(h) && h.settled == Completed && h.store == users
    // a token is written only for the right password
    ensures h.writes[0].body.Session? ==>
              exists u :: u in users && Str(u.email) == Prop(body, "email")
                          && Prop(body, "password").Str? && s.compare(Prop(body, "password").s, u.password)
                          && h.writes[0].body == SessionFor(u, s, env)
    ensures !Truthy(Prop(body, "email")) || !Truthy(Prop(body, "password")) ==>
              h.writes == [Response(400, Failure(CredentialsRequired))]
    ensures Truthy(Prop(body, "email")) && Truthy(Prop(body, "password")) && env.fault.Some? ==>
              h.writes == [Response(500, Failure(ServerErrorLower))]
    ensures Truthy(Prop(body, "email")) && Truthy(Prop(body, "password")) && env.fault.None? &&
            FindUserByEmail(users, Prop(body, "email")).None? ==>
              h.writes == [Response(401, Failure(InvalidCredentials))]
    // the right password: a single 200 carrying a session for that account
    ensures Truthy(Prop(body, "email")) && Truthy(Prop(body, "password")) && Prop(body, "password").Str? && env.fault.None? &&
            FindUserByEmail(users, Prop(body, "email")).Some? &&
            s.compare(Prop(body, "password").s, FindUserByEmail(users, Prop(body, "email")).value.password) ==>
              h.writes == [Response(200, SessionFor(FindUserByEmail(users, Prop(body, "email")).value, s, env))]
    // a wrong password: a single 401 and no token
    ensures Truthy(Prop(body, "email")) && Truthy(Prop(body, "password")) && Prop(body, "password").Str? && env.fault.None? &&
            FindUserByEmail(users, Prop(body, "email")).Some? &&
            !s.compare(Prop(body, "password").s, FindUserByEmail(users, Prop(body, "email")).value.password) ==>
              h.writes == [Response(401, Failure(InvalidCredentials))]
    // bcrypt.compare throws on a non-string password: a single 500
    ensures Truthy(Prop(body, "email")) && Truthy(Prop(body, "password")) && !Prop(body, "password").Str? && env.fault.None? &&
            FindUserByEmail(users, Prop(body, "email")).Some? ==>
              h.writes == [Response(500, Failure(ServerErrorLower))]
    // wherever the original already answers once, the correction answers the same
    ensures |LoginUser(users, body, s, env).writes| <= 1 ==> h == LoginUser(users, body, s, env)
  {
    var h := LoginUser(users, body, s, env);
    if |h.writes| == 2 then Handled([h.writes[0]], users, Completed) else h
  }

  /** Round trip: after a registration succeeds, logging in with the same
      e-mail and password returns a session for the new account, provided
      bcrypt accepts a password against its own hash and the e-mail was free. */
  lemma RegisterThenLogin(users: Users, body: Object, s: Services, env: Env, later: Env)
    requires forall p: string, salt: nat :: s.compare(p, s.hash(p, salt))
    requires FindUserByEmail(users, Prop(body, "email")).None?
    requires RegisterUser(users, body, s, env).store != users
    requires later.fault.None?
    ensures var store := RegisterUser(users, body, s, env).store;
            && |store| == |users| + 1
            && LoginUser(store, body, s, later).writes == [Response(200, SessionFor(store[|users|], s, later))]
  {
    var h := RegisterUser(users, body, s, env);
    var u := h.store[|users|];
    var email := Prop(body, "email");
    assert FindUserByEmail(h.store, email) == Some(u) by {
      FindEmailPastPrefix(users, u, email);
    }
  }

  /** A lookup that misses the prefix finds the first match after it. */
  lemma {:induction false} FindEmailPastPrefix(users: Users, u: User, email: Json)
    requires FindUserByEmail(users, email).None?
    requires Str(u.email) == email
    ensures FindUserByEmail(users + [u], email) == Some(u)
    decreases |users|
  {
    if |users| > 0 {
      assert (users + [u])[1..] == users[1..] + [u];
      assert FindUserByEmail(users[1..], email).None?;
      FindEmailPastPrefix(users[1..], u, email);
    }
  }

  /** `getCurrentUser`: the requester's own public fields. */
  function GetCurrentUser(users: Users, requester: Option<UserId>, env: Env): (h: Handled<Users>)
    ensures h.store == users && h.settled == Completed && |h.writes| == 1
    ensures env.fault.Some? ==> h.writes[0] == Response(500, Failure(ServerErrorUpper))
    ensures env.fault.None? && FindUserById(users, requester).None? ==>
              h.writes[0] == Response(400, Failure(UserNotFoundDot))
    ensures env.fault.None? && FindUserById(users, requester).Some? ==>
              h.writes[0] == Response(200, CurrentUser(PublicView(FindUserById(users, requester).value)))
    // a 200 carries the requester's own account and nobody else's
    ensures h.writes[0].status == 200 ==>
              && h.writes[0].body.CurrentUser?
              && requester == Some(h.writes[0].body.user.id)
              && exists u :: u in users && PublicView(u) == h.writes[0].body.user
  {
    if env.fault.Some? then Handled([Response(500, Failure(ServerErrorUpper))], users, Completed)
    else match FindUserById(users, requester)
      case None => Handled([Response(400, Failure(UserNotFoundDot))], users, Completed)
      case Some(u) => Handled([Response(200, CurrentUser(PublicView(u)))], users, Completed)
  }

  /** A gate-authenticated request followed by `getCurrentUser` answers with
      the very account the gate attached. */
  lemma GateThenCurrentUser(header: Option<string>, users: Users, s: Services, env: Env, later: Env)
    requires AuthMiddleware(header, users, s, env).attached.Authenticated?
    requires later.fault.None?
    ensures var g := AuthMiddleware(header, users, s, env);
            GetCurrentUser(users, Requester(g.attached), later).writes == [Response(200, CurrentUser(g.attached.user))]
  {
  }

  /** The input `updateProfile` accepts: a truthy name and a valid string e-mail. */
  predicate ValidProfile(body: Object, s: Services) {
    var email := Prop(body, "email");
    Truthy(Prop(body, "name")) && email.Str? && email.s != "" && s.isEmail(email.s)
  }

  /** `updateProfile`. The `findByIdAndUpdate` query is built but never
      awaited, so the store never changes; `res.json` of the Query object
      throws on its circular references, and the catch answers 400. */
  function UpdateProfile(users: Users, requester: Option<UserId>, body: Object, s: Services, env: Env): (h: Handled<Users>)
    ensures h.store == users
    // a non-string e-mail makes validator.isEmail throw before the `try`
    ensures Truthy(Prop(body, "name")) && Truthy(Prop(body, "email")) && !Prop(body, "email").Str? ==>
              h == Handled([], users, Unhandled)
    // every other input is answered
    ensures !(Truthy(Prop(body, "name")) && Truthy(Prop(body, "email")) && !Prop(body, "email").Str?) ==>
              h.settled == Completed
    ensures h.settled == Completed ==> 1 <= |h.writes| <= 2
    // invalid input: 400 is written, and a second write always follows
    ensures h.settled == Completed && !ValidProfile(body, s) ==>
              |h.writes| == 2 && h.writes[0] == Response(400, Failure(NameEmailRequired))
    ensures h.settled == Completed && ValidProfile(body, s) ==> |h.writes| == 1
    // the e-mail of another account: 409 as the last write
    ensures h.settled == Completed && env.fault.None? &&
            FindOtherByEmail(users, Prop(body, "email"), requester).Some? ==>
              h.writes[|h.writes| - 1] == Response(409, Failure(EmailInUse))
    // otherwise the last write is the catch block's 400 "Server Error."
    ensures h.settled == Completed && (env.fault.Some? || FindOtherByEmail(users, Prop(body, "email"), requester).None?) ==>
              h.writes[|h.writes| - 1] == Response(400, Failure(ServerErrorUpper))
    // so the handler never answers with success
    ensures forall i :: 0 <= i < |h.writes| ==> !Succeeds(h.writes[i].body)
  {
    var name, email := Prop(body, "name"), Prop(body, "email");
    if Truthy(name) && Truthy(email) && !email.Str? then Handled([], users, Unhandled)
    else
      var first := if !ValidProfile(body, s) then [Response(400, Failure(NameEmailRequired))] else [];
      if env.fault.None? && FindOtherByEmail(users, email, requester).Some? then
        Handled(first + [Response(409, Failure(EmailInUse))], users, Completed)
      else
        // a thrown lookup, or `res.json` failing to serialize the Query
        Handled(first + [Response(400, Failure(ServerErrorUpper))], users, Completed)
  }

  /** `updateProfile` as evidently intended: `return` after the 400, and the
      update awaited, so the requester's name and e-mail are stored and the
      reply carries the updated account (null when there is none). */
  function UpdateProfileCorrected(users: Users, requester: Option<UserId>, body: Object, s: Services, env: Env): (h: Handled<Users>)
    ensures AnswersOnce(h)
    ensures Truthy(Prop(body, "name")) && Truthy(Prop(body, "email")) && !Prop(body, "email").Str? ==>
              h == Handled([], users, Unhandled)
    // every other input is answered
    ensures !(Truthy(Prop(body, "name")) && Truthy(Prop(body, "email")) && !Prop(body, "email").Str?) ==>
              h.settled == Completed
    ensures h.settled == Completed && !ValidProfile(body, s) ==>
              h == Handled([Response(400, Failure(NameEmailRequired))], users, Completed)
    ensures ValidProfile(body, s) && env.fault.Some? ==>
              h == Handled([Response(400, Failure(ServerErrorUpper))], users, Completed)
    ensures ValidProfile(body, s) ==> h.settled == Completed
    // another account holds the e-mail: a single 409 and nothing stored
    ensures ValidProfile(body, s) && env.fault.None? && FindOtherByEmail(users, Prop(body, "email"), requester).Some? ==>
              h == Handled([Response(409, Failure(EmailInUse))], users, Completed)
    // with valid input, 409 exactly when another account holds the e-mail
    ensures ValidProfile(body, s) && env.fault.None? ==>
              (h.writes[0].status == 409 <==> FindOtherByEmail(users, Prop(body, "email"), requester).Some?)
    // only the requester's name and e-mail can change
    ensures |h.store| == |users|
    ensures forall j :: 0 <= j < |users| && h.store[j] != users[j] ==>
              && ValidProfile(body, s)
              && FindUserById(users, requester) == Some(users[j])
              && h.store[j] == users[j].(name := Prop(body, "name"), email := Prop(body, "email").s)
    // success: the requester's account now holds the new name and e-mail, and the reply shows it
    ensures ValidProfile(body, s) && env.fault.None? && FindOtherByEmail(users, Prop(body, "email"), requester).None? &&
            FindUserById(users, requester).Some? ==>
              var u := FindUserById(users, requester).value.(name := Prop(body, "name"), email := Prop(body, "email").s);
              && FindUserById(h.store, requester) == Some(u)
              && h.writes == [Response(200, ProfileUpdated(Some(PublicView(u))))]
  {
    var name, email := Prop(body, "name"), Prop(body, "email");
    if Truthy(name) && Truthy(email) && !email.Str? then Handled([], users, Unhandled)
    else if !ValidProfile(body, s) then Handled([Response(400, Failure(NameEmailRequired))], users, Completed)
    else if env.fault.Some? then Handled([Response(400, Failure(ServerErrorUpper))], users, Completed)
    else if FindOtherByEmail(users, email, requester).Some? then
      Handled([Response(409, Failure(EmailInUse))], users, Completed)
    else match FindUserById(users, requester)
      case None => Handled([Response(200, ProfileUpdated(None))], users, Completed)
      case Some(u) =>
        var i := IndexOfId(users, requester.value).value;
        var updated := users[i := u.(name := name, email := email.s)];
        assert FindUserById(updated, requester) == Some(updated[i]) by {
          SameIdsSameIndex(users, updated, requester.value);
        }
        Handled([Response(200, ProfileUpdated(Some(PublicView(updated[i]))))], updated, Completed)
  }

  /** The corrected profile update keeps e-mails unique. */
  lemma {:induction false} ProfileCorrectedKeepsEmailsUnique(users: Users, requester: Option<UserId>, body: Object, s: Services, env: Env)
    requires UniqueEmails(users) && UniqueIds(users)
    ensures UniqueEmails(UpdateProfileCorrected(users, requester, body, s, env).store)
  {
    var h := UpdateProfileCorrected(users, requester, body, s, env);
    forall a, b | 0 <= a < b < |h.store| ensures h.store[a].email != h.store[b].email {
      if h.store[a] != users[a] || h.store[b] != users[b] {
        var e := Prop(body, "email");
        assert FindOtherByEmail(users, e, requester).None?;
        if h.store[a] != users[a] {
          assert requester == Some(users[a].id) && users[b].id != users[a].id;
          assert !FilterMatches(Str(users[b].email), e);
          assert h.store[b] == users[b];
        } else {
          assert requester == Some(users[b].id) && users[a].id != users[b].id;
          assert !FilterMatches(Str(users[a].email), e);
        }
      }
    }
  }

  /** Round trip: after a corrected profile update succeeds, the current
      user is reported with the new name and e-mail. */
  lemma ProfileUpdateThenCurrentUser(users: Users, requester: Option<UserId>, body: Object, s: Services, env: Env, later: Env)
    requires ValidProfile(body, s) && env.fault.None?
    requires FindOtherByEmail(users, Prop(body, "email"), requester).None?
    requires FindUserById(users, requester).Some?
    requires later.fault.None?
    ensures var h := UpdateProfileCorrected(users, requester, body, s, env);
            && h.writes[0].body.ProfileUpdated? && h.writes[0].body.profile.Some?
            && var p := h.writes[0].body.profile.value;
               && p.name == Prop(body, "name") && p.email == Prop(body, "email").s
               && GetCurrentUser(h.store, requester, later).writes == [Response(200, CurrentUser(p))]
  {
  }

  /** `updatePassword`. */
  function UpdatePassword(users: Users, requester: Option<UserId>, body: Object, s: Services, env: Env): (h: Handled<Users>)
    ensures AnswersOnce(h) && h.settled == Completed
    // checks in order: input, user, current password
    ensures var cur, newPw := Prop(body, "currentPassword"), Prop(body, "newPassword");
            && (!Truthy(cur) || !Truthy(newPw) || LengthBelow(newPw, MinPasswordLength) ==>
                  h.writes == [Response(400, Failure(PasswordInvalid))])
            && (Truthy(cur) && Truthy(newPw) && !LengthBelow(newPw, MinPasswordLength) && env.fault.None? &&
                FindUserById(users, requester).None? ==>
                  h.writes == [Response(404, Failure(UserNotFoundDot))])
            && (Truthy(cur) && Truthy(newPw) && !LengthBelow(newPw, MinPasswordLength) && env.fault.None? &&
                cur.Str? && FindUserById(users, requester).Some? &&
                !s.compare(cur.s, FindUserById(users, requester).value.password) ==>
                  h.writes == [Response(401, Failure(CurrentPasswordInvalid))])
            && (Truthy(cur) && Truthy(newPw) && !LengthBelow(newPw, MinPasswordLength) && env.fault.Some? ==>
                  h == Handled([Response(500, Failure(ServerErrorLower))], users, Completed))
            // bcrypt throws on a non-string password
            && (Truthy(cur) && Truthy(newPw) && !LengthBelow(newPw, MinPasswordLength) && env.fault.None? &&
                FindUserById(users, requester).Some? &&
                (!cur.Str? || (s.compare(cur.s, FindUserById(users, requester).value.password) && !newPw.Str?)) ==>
                  h.writes == [Response(500, Failure(ServerErrorLower))])
            // every check passes: the change is stored and confirmed
            && (Truthy(cur) && Truthy(newPw) && !LengthBelow(newPw, MinPasswordLength) && env.fault.None? &&
                cur.Str? && newPw.Str? && FindUserById(users, requester).Some? &&
                s.compare(cur.s, FindUserById(users, requester).value.password) ==>
                  h.writes == [Response(200, Notice(PasswordChanged))])
    // only the requester's password hash can change, and only to the hash of the new password
    ensures |h.store| == |users|
    ensures forall j :: 0 <= j < |users| ==>
              h.store[j] == users[j] || h.store[j] == users[j].(password := h.store[j].password)
    ensures forall j :: 0 <= j < |users| && h.store[j] != users[j] ==>
              && requester == Some(users[j].id)
              && FindUserById(users, requester) == Some(users[j])
              && Prop(body, "currentPassword").Str? && s.compare(Prop(body, "currentPassword").s, users[j].password)
              && Prop(body, "newPassword").Str? && h.store[j].password == s.hash(Prop(body, "newPassword").s, env.salt)
    // a rejected request saves nothing
    ensures h.writes[0].status != 200 ==> h.store == users
    // success: the requester's stored hash is the new one
    ensures h.writes[0].status == 200 ==>
              && h.writes[0] == Response(200, Notice(PasswordChanged))
              && Prop(body, "newPassword").Str?
              && FindUserById(h.store, requester).Some?
              && FindUserById(h.store, requester).value.password == s.hash(Prop(body, "newPassword").s, env.salt)
  {
    var cur, newPw := Prop(body, "currentPassword"), Prop(body, "newPassword");
    if !Truthy(cur) || !Truthy(newPw) || LengthBelow(newPw, MinPasswordLength) then
      Handled([Response(400, Failure(PasswordInvalid))], users, Completed)
    else if env.fault.Some? then
      Handled([Response(500, Failure(ServerErrorLower))], users, Completed)
    else match FindUserById(users, requester)
      case None => Handled([Response(404, Failure(UserNotFoundDot))], users, Completed)
      case Some(u) =>
        if !cur.Str? then
          // bcrypt.compare rejects a non-string password
          Handled([Response(500, Failure(ServerErrorLower))], users, Completed)
        else if !s.compare(cur.s, u.password) then
          Handled([Response(401, Failure(CurrentPasswordInvalid))], users, Completed)
        else if !newPw.Str? then
          // bcrypt.hash throws on a non-string password
          Handled([Response(500, Failure(ServerErrorLower))], users, Completed)
        else
          var i := IndexOfId(users, requester.value).value;
          var updated := users[i := u.(password := s.hash(newPw.s, env.salt))];
          assert FindUserById(updated, requester) == Some(updated[i]) by {
            SameIdsSameIndex(users, updated, requester.value);
          }
          Handled([Response(200, Notice(PasswordChanged))], updated, Completed)
  }

  /** After a successful password change the account logs in with the new
      password, provided bcrypt accepts a password against its own hash and
      e-mails are unique and present. */
  lemma PasswordChangeThenLogin(users: Users, requester: Option<UserId>, body: Object, s: Services, env: Env, later: Env)
    requires UniqueEmails(users) && EmailsPresent(users)
    requires forall p: string, salt: nat :: s.compare(p, s.hash(p, salt))
    requires UpdatePassword(users, requester, body, s, env).writes[0].status == 200
    requires later.fault.None?
    ensures var store := UpdatePassword(users, requester, body, s, env).store;
            && FindUserById(store, requester).Some?
            && var u := FindUserById(store, requester).value;
               LoginUser(store, map["email" := Str(u.email), "password" := Prop(body, "newPassword")], s, later).writes
                 == [Response(200, SessionFor(u, s, later))]
  {
    var h := UpdatePassword(users, requester, body, s, env);
    var store := h.store;
    var newPw := Prop(body, "newPassword");
    var u := FindUserById(store, requester).value;
    var i :| 0 <= i < |store| && store[i] == u;
    assert forall j :: 0 <= j < |store| ==> store[j].email == users[j].email;
    assert UniqueEmails(store);
    FindOwnEmail(store, i);
    var login := map["email" := Str(u.email), "password" := newPw];
    assert Prop(login, "email") == Str(u.email) && Prop(login, "password") == newPw;
    assert newPw.Str? && u.password == s.hash(newPw.s, env.salt);
    assert s.compare(newPw.s, u.password);
    assert Truthy(Str(u.email)) by {
      assert u.email == users[i].email;
    }
    assert Truthy(newPw) && FindUserByEmail(store, Str(u.email)) == Some(u);
  }

  /** Changing fields other than `id` keeps every id lookup at the same position. */
  lemma SameIdsSameIndex(a: Users, b: Users, id: UserId)
    requires |a| == |b|
    requires forall j :: 0 <= j < |a| ==> a[j].id == b[j].id
    ensures IndexOfId(a, id) == IndexOfId(b, id)
  {
  }
}
